=== FILE: README.md ===
# Onboarding and connected-peer list, modelled in Dafny

This project models two pieces of sequential logic from the Planetary iOS client.

- **Onboarding** (`Source/Onboarding/Onboarding.swift`):
  - `start` creates a secret and builds an `AppConfiguration` around it. It logs the bot in and publishes an About.
  - Only after all of that does `didStart` apply, add and save the configuration, track the end of onboarding, and mark the new identity `started`.
  - `reset` logs out after a failed attempt and forgets the analytics identity.
  - `resume` rebuilds a `Context` from the current configuration and looks up its About.
  - `OnboardingError.optional` wraps an optional error.
- **The connected-peer list** (`Source/Controller/ConnectedPeerListCoordinator.swift`):
  - `connectedPeersCount` and its do-nothing setter.
  - `peerTapped`, which falls back to `"@" + id + ".ed25519"`.
  - The merge in `peerConnectionInfo(from:)`. Earlier rows are marked inactive. Rows whose id is an open key are removed and replaced by that key's fresh row. The result is sorted with active rows first, then by `name ?? ""`.

Every collaborator is an input to the model:
- the birthdate and name checks, `CommandLine.arguments` and `Context(from:)` (`Onboarding.Environment`);
- the replies of secret creation, the clock, login, publish, about lookup and logout (`StartReplies`, `ResumeReplies`, a logout error);
- the view database's `about(identity:)` and `PeerConnectionInfo(about:)` (`ConnectedPeerList.Directory`).

Effects go into an explicit `Onboarding.World`:
- the bot's logged-in identity (`session`);
- the current configuration, the configuration list and its saved copy;
- the onboarding status map;
- a trace of every call, analytics and crash-reporting event, status write and completion, in order.

Next to the trace, the world keeps a running `Tally` of how many events of each kind were emitted. The `...KeepsTallied` lemmas prove that the tally is exactly the count of the trace's events. So "exactly one completion", "login is never attempted" and the other count statements are statements about the trace.

Modules:
- `Wrappers`: `Option`.
- `Text`: lexicographic order on strings.
- `Sequences`: map, permutation, distinctness.
- `Identities`: identities, `About`, the ed25519 identity of a key.
- `Onboarding`.
- `Peers`: the row value, the sort closure, insertion sort.
- `ConnectedPeerList`.

## Model

| member | source | states |
|---|---|---|
| Onboarding.OptionalError | Source/Onboarding/Onboarding.swift:23-26 | no error maps to no error, and any error maps to `.other` carrying that same error |
| Onboarding.OptionalErrorRoundTrip | Source/Onboarding/Onboarding.swift:23-26 | wrapping with `optional` loses nothing: the underlying error can be read back from the result |
| Onboarding.StartVerdict | Source/Onboarding/Onboarding.swift:81-87 | the decision table of `start`'s outcome never yields `invalidPhoneNumber`, because the phone check is commented out |
| Onboarding.StartIgnoresPhone | Source/Onboarding/Onboarding.swift:77-86 | two calls of `start` that differ only in the phone number have identical effects |
| Onboarding.Start | Source/Onboarding/Onboarding.swift:81-157 | the trace only grows; on failure the last event is the completion with the first failing step's error; a failed birthdate, name or logged-in check adds that completion and nothing else; login receives the new configuration and publish the About of the secret's identity with the raw, untimestamped name; the session becomes the new identity exactly when login succeeded; a failed attempt leaves the configuration list, saved copy, current configuration and status map unchanged |
| Onboarding.StartCounts | Source/Onboarding/Onboarding.swift:86-172 | exactly one completion, and each call only after the step before it succeeded: onboarding start is tracked and a secret requested only when the local checks pass; login only when a secret exists; publish only when login succeeded; onboarding end tracked and status written only when the attempt fully succeeded |
| Onboarding.StartConfiguration | Source/Onboarding/Onboarding.swift:100-113 | the configuration is bound to the secret, is named `name + " (" + timestamp + ")"`, has joined the planetary system, and its network is `integrationTests` exactly when the arguments contain `use-ci-network`, `ssb` otherwise |
| Onboarding.SecretCreated | Source/Onboarding/Onboarding.swift:92-118 | an error from secret creation is reported before anything else; when no secret is returned, exactly that report (if any) and `(nil, secretFailed(error))` are added, and the configuration list, saved copy, current configuration and status map are unchanged; otherwise the next event is login with the new configuration, followed after a clean login by publishing `About(secret identity, name)`; the session becomes the secret's identity only if login later succeeds |
| Onboarding.SecretCreatedCounts | Source/Onboarding/Onboarding.swift:92-120 | one completion; exactly one login once a secret exists, none otherwise; a publish only if that login succeeded |
| Onboarding.LoginReplied | Source/Onboarding/Onboarding.swift:120-131 | a login error adds exactly two events: its report, then the completion with `(nil, botError(error))`, and leaves all stores as they were; a clean login is followed by publishing `About(secret identity, name)` |
| Onboarding.LoginRepliedCounts | Source/Onboarding/Onboarding.swift:120-131 | after a login error there is no publish and no status write; otherwise exactly one publish |
| Onboarding.PublishReplied | Source/Onboarding/Onboarding.swift:131-137 | a publish error adds exactly two events: its report, then the completion with `(nil, botError(error))` and stores nothing |
| Onboarding.PublishRepliedCounts | Source/Onboarding/Onboarding.swift:131-173 | one completion; on success, one onboarding-end event and one status write |
| Onboarding.Report | Source/Onboarding/Onboarding.swift:93-94 | an error is logged and reported to crash reporting as exactly one `ErrorReported` event carrying it; no error changes nothing |
| Onboarding.Identify | Source/Onboarding/Onboarding.swift:139-149 | identifying appends exactly a crash-reporting identify with the About's identity, name and network key, then an analytics identify with the same identity and name and the caller's network label; no count and no store changes |
| Onboarding.StartSucceeds | Source/Onboarding/Onboarding.swift:130-173 | on full success, crash reporting and analytics first identify the secret's identity with the raw name, analytics with the network's key string (`network.string`); the last six events are, in order: the completion with the context whose About has the secret's identity and the raw name and no error; configuration applied, added, saved; onboarding end tracked; status set to `started`. The configuration is then current, appended to the list and saved, and the identity's status is `started` |
| Onboarding.SecretSucceeds | Source/Onboarding/Onboarding.swift:100-173 | the same success ordering and stores, from the `createSecret` callback on |
| Onboarding.LoginSucceeds | Source/Onboarding/Onboarding.swift:128-173 | the same success ordering and stores, from the `login` callback on |
| Onboarding.PublishSucceeds | Source/Onboarding/Onboarding.swift:139-173 | the same success ordering and stores, from the `publish` callback on, including the two identify events with `network.string` for analytics just before the completion |
| Onboarding.DidStart | Source/Onboarding/Onboarding.swift:162-173 | the configuration becomes current; the earlier configurations stay in order with the new one last, and the whole list is saved; the new identity reads `started` and every other identity keeps its status; the status write is the last event, after apply, add, save and onboarding end |
| Onboarding.StartMarksOnlyNewIdentity | Source/Onboarding/Onboarding.swift:170-172 | after `start`, an identity reads `started` exactly when the attempt succeeded and it is the new secret's identity; every other identity reads as before |
| Onboarding.StartKeepsTallied | Source/Onboarding/Onboarding.swift:81-173 | the counts `start` promises are counts of the events in its trace |
| Onboarding.Reset | Source/Onboarding/Onboarding.swift:179-188 | adds exactly: logout, the logout error's report only when there is one, forget the analytics identity, one completion; the session is cleared only by a clean logout; status map and configurations unchanged |
| Onboarding.ResetKeepsTallied | Source/Onboarding/Onboarding.swift:179-188 | the counts `reset` promises are counts of the events in its trace |
| Onboarding.ResetTwiceIsResetOnce | Source/Onboarding/Onboarding.swift:175-188 | after a clean reset, a second reset leaves session, stores and status as the first left them, whatever its logout reports |
| Onboarding.ResetThenStartAdmitted | Source/Onboarding/Onboarding.swift:86-87 | after a reset whose logout succeeded, `start` passes its logged-in guard: it proceeds exactly when the birthdate and name checks pass |
| Onboarding.FailedStartThenResetRestores | Source/Onboarding/Onboarding.swift:175-178 | a failed `start` followed by `reset` leaves the configuration list, saved copy, current configuration and status map as before the attempt, writes no status, and with a clean logout leaves no session |
| Onboarding.ResumeContext | Source/Onboarding/Onboarding.swift:199-203 | `resume` has a context exactly when a configuration is current and a context can be built from it, and then it is that context |
| Onboarding.Resume | Source/Onboarding/Onboarding.swift:197-231 | with no current configuration or no buildable context it completes `(nil, configurationFailed)` and does nothing else; otherwise it logs in once with the current configuration and looks up the About of the context's identity once, and its last completion is `(context, botError)` when the About is missing or `(context with About, nil)` when found; it completes twice when login failed; it never writes status or configurations |
| Onboarding.AboutLookedUp | Source/Onboarding/Onboarding.swift:209-229 | a missing About adds only the completion with the context and `botError`; a found one adds a crash-reporting identify with the network key, an analytics identify with the network's display name (`network.name`), both with the About's identity and name, then the completion with the context carrying the About and no error; exactly one completion and nothing but the trace changes |
| Onboarding.ResumeKeepsTallied | Source/Onboarding/Onboarding.swift:197-231 | the counts `resume` promises, including the doubled completion, are counts of the events in its trace |
| Onboarding.ResumeReportsNothing | Source/Onboarding/Onboarding.swift:205-215 | whatever login and the About lookup answer, `resume` adds no error report to the trace |
| Onboarding.ResumeLoginFailureCompletesTwice | Source/Onboarding/Onboarding.swift:205-213 | when login fails the completion is called first with `(context, botError(login error))` and later again with the About lookup's outcome |
| Onboarding.ResumeCorrected | Source/Onboarding/Onboarding.swift:197-231 | exactly one completion in every case; login uses the current configuration; a login error ends the attempt with `(context, botError)` after one login and no lookup, and a clean login is followed by the lookup of the context's identity; the full call count is fixed (one completion, one login, a lookup only after a clean login, nothing else counted); stores and status untouched |
| Onboarding.ResumeCorrectedAgreesOnCleanLogin | Source/Onboarding/Onboarding.swift:205-231 | with a clean login the corrected `resume` is exactly `resume`: the two differ only after a login error |
| Onboarding.ResumeCorrectedKeepsTallied | Source/Onboarding/Onboarding.swift:197-231 | the corrected resume's counts are counts of the events in its trace |
| Onboarding.SuccessfulStartIsResumable | Source/Onboarding/Onboarding.swift:190-203 | after a successful `start`, the corrected `resume` rebuilds the context of the configuration `start` created, its first event is a login with that configuration instead of a `configurationFailed` completion, and a clean login and lookup then complete without error |
| Identities.Ed25519 | Source/Controller/ConnectedPeerListCoordinator.swift:157 | the identity of a key is `@`, the key, then `.ed25519`, with length key + 9 |
| Identities.Ed25519Injective | Source/Controller/ConnectedPeerListCoordinator.swift:157 | different keys have different identities, so each open key is looked up under its own identity |
| ConnectedPeerList.ConnectedPeersCount | Source/Controller/ConnectedPeerListCoordinator.swift:59-62 | nil exactly when there is no list; otherwise the number of active rows, which is at most the number of rows |
| ConnectedPeerList.CountActive | Source/Controller/ConnectedPeerListCoordinator.swift:61 | the count equals how many rows are active |
| ConnectedPeerList.SetConnectedPeersCount | Source/Controller/ConnectedPeerListCoordinator.swift:63-66 | assigning any value leaves the coordinator, and so the count read back, unchanged |
| ConnectedPeerList.PeerTapped | Source/Controller/ConnectedPeerListCoordinator.swift:128-134 | tracks the `show_connected_peer_profile` button and opens the row's identity when it has one, else `"@" + id + ".ed25519"` |
| ConnectedPeerList.Entry | Source/Controller/ConnectedPeerListCoordinator.swift:157-166 | the row for an open key is the row built from the About found under the key's ed25519 identity; when none is found, an active row whose id and name are the key, with no identity |
| ConnectedPeerList.FallbackRowOpensKeyProfile | Source/Controller/ConnectedPeerListCoordinator.swift:157-162 | a row built for a key whose About was not found opens that key's ed25519 profile, and two such rows for different keys open different profiles |
| ConnectedPeerList.WithoutKeeps | Source/Controller/ConnectedPeerListCoordinator.swift:154 | `removeAll(where:)` keeps exactly the rows whose id is not removed |
| ConnectedPeerList.AbsorbSplit | Source/Controller/ConnectedPeerListCoordinator.swift:153-167 | the loop never changes or reorders rows already in the list; it only removes those whose id is an open key |
| ConnectedPeerList.AbsorbOnlyAddsEntries | Source/Controller/ConnectedPeerListCoordinator.swift:153-167 | every row the loop adds is the fresh row of one of the open keys |
| ConnectedPeerList.AbsorbReference | Source/Controller/ConnectedPeerListCoordinator.swift:153-167 | when fresh rows carry their key as id, the loop equals: drop every row whose id is an open key, then append one fresh row per distinct key, in last-occurrence order |
| ConnectedPeerList.Merge | Source/Controller/ConnectedPeerListCoordinator.swift:145-167 | every earlier row whose id is not an open key is in the merged list, marked inactive; every active row of the merged list is the fresh row of an open key |
| ConnectedPeerList.MergeReference | Source/Controller/ConnectedPeerListCoordinator.swift:145-167 | when fresh rows carry their key as id (`KeyedFor`), the merged list is the earlier rows, marked inactive, minus open-key ids, followed by one fresh row per distinct open key |
| ConnectedPeerList.PeerConnectionInfo | Source/Controller/ConnectedPeerListCoordinator.swift:143-176 | the result is a permutation of the merged list, with active rows first and names non-decreasing within each group, nil as "" |
| ConnectedPeerList.PreviousPeersKeptInactive | Source/Controller/ConnectedPeerListCoordinator.swift:145-154 | every earlier row whose id is not an open key appears with `isActive = false` and its other fields unchanged |
| ConnectedPeerList.NothingElseAppears | Source/Controller/ConnectedPeerListCoordinator.swift:145-167 | every row of the result is either such a kept earlier row or the fresh row of an open key |
| ConnectedPeerList.OneEntryPerOpenKey | Source/Controller/ConnectedPeerListCoordinator.swift:153-166 | each open key has exactly one row, even when the key repeats |
| ConnectedPeerList.OpenKeyRowIsFresh | Source/Controller/ConnectedPeerListCoordinator.swift:153-166 | the row with an open key's id is that key's fresh row: from its About, or `(id: key, name: key)` when the lookup fails |
| ConnectedPeerList.ConnectedCountIsDistinctOpenKeys | Source/Controller/ConnectedPeerListCoordinator.swift:59-62 | after a merge, the connected count equals the number of distinct open keys |
| ConnectedPeerList.PeerConnectionInfoMerges | Source/Controller/ConnectedPeerListCoordinator.swift:143-176 | for the list the coordinator publishes: earlier rows of other ids are kept inactive, nothing but such rows and open keys' fresh rows appears, and under `KeyedFor` one fresh row per open key (with `ActiveFor`, the count equals the distinct open keys) |
| Peers.InIncreasingOrderAsymmetric | Source/Controller/ConnectedPeerListCoordinator.swift:169-175 | the sort closure is a strict order: a row it puts strictly first is never also put strictly after |
| Peers.NotAfterTotal | Source/Controller/ConnectedPeerListCoordinator.swift:169-175 | for any two rows, the closure lets one of them stand before the other |
| Peers.NotAfterTransitive | Source/Controller/ConnectedPeerListCoordinator.swift:169-175 | "may stand before" under the closure is transitive, so a sort by it is well defined |
| Peers.SortedIffDisplayOrdered | Source/Controller/ConnectedPeerListCoordinator.swift:169-175 | being sorted by the closure is exactly: every active row precedes every inactive one, and names are non-decreasing within each group |
| Peers.Sort | Source/Controller/ConnectedPeerListCoordinator.swift:169-175 | the result is a permutation of the input and is sorted by the closure |

## Left out

- Logging, crash reporting and analytics. They are kept only as trace events; nothing is transmitted. Each `Log.optional` and `reportIfNeeded` pair becomes one `ErrorReported` event.
- The Go bot, `Bots.current`, the view database and the statistics service are not part of this model. Their answers are inputs. The bot's logged-in identity is `World.session`:
  - Login sets it when login succeeds.
  - Logout clears it only when logout reports no error. The bot's real logout behaviour is not visible.
- The `Context`'s bot handle is not modelled. The signing key is an optional string.
- `Date.olderThan(yearsAgo:)` is an environment predicate applied to 16. `String.isValidName` is an environment predicate. `Date().shortDateTimeString` is a timestamp reply.
- `Context(from:)` is the partial function `Environment.contextFrom`.
- Onboarding.Start: the force-unwrap of `Context(from:)` at Source/Onboarding/Onboarding.swift:118 becomes the precondition `ContextBuildable`. It applies only when the unwrap is reached: a secret exists and the local checks pass. A nil there would crash the app, which is not modelled.
- `configuration.apply()`, `AppConfigurations.add` and `AppConfigurations.current.save()`:
  - `apply()` makes the configuration current.
  - `add` appends it to the list.
  - `save()` copies the list to the saved copy.
  - The persistence format is not modelled.
- `PeerConnectionInfo(about:)` is the oracle `Directory.fromAbout`, because its field choices are not visible. The row for a failed lookup, `PeerConnectionInfo(id:name:)`, is assumed to have no identity and to be active; that struct is not part of this model.
- ConnectedPeerList.OneEntryPerOpenKey is proved only under the hypothesis `KeyedFor`: `PeerConnectionInfo(about:)` keeps the looked-up key as the row id. The failed-lookup row always does.
- ConnectedPeerList.OpenKeyRowIsFresh is proved only under the same `KeyedFor` hypothesis.
- ConnectedPeerList.ConnectedCountIsDistinctOpenKeys is proved only under `KeyedFor` and `ActiveFor`. `ActiveFor` means the rows `PeerConnectionInfo(about:)` builds are active.
- ConnectedPeerList.PeerConnectionInfo sorts by insertion sort, which is one of the orders Swift's `sorted(by:)` may return; Swift's sort is not guaranteed to be stable. The merge lemmas therefore hold for any permutation of the merged list.
- Name comparison is character-by-character lexicographic order. Swift's `String` `<` compares under Unicode canonical equivalence; normalisation is not modelled.
- The Combine subscription, `Task`, `RunLoop.main` delivery, `viewDidAppear` and `viewDidDisappear` are concurrency plumbing (Source/Controller/ConnectedPeerListCoordinator.swift:87-124). The copying of `recentlyDownloadedPostCount` and `recentlyDownloadedPostDuration` from the statistics is not modelled either.
- The router's `showProfile` and the analytics button event are modelled as the `Tap` value that `peerTapped` produces.
- `ConnectedPeerListError.identityNotFound` is not used by the modelled code.
- Three files are outside the core: `Bot+Blobs.swift`, `Blob+UIImage.swift` and `FollowingTableViewController.swift`. So are the analytics test mocks and `Key.swift`.
- The phone check at Source/Onboarding/Onboarding.swift:84 is commented out, so `start` never reports `invalidPhoneNumber` (Onboarding.StartVerdict).
- `resume` logs and reports none of its failures (Source/Onboarding/Onboarding.swift:197-231); Onboarding.ResumeReportsNothing states this.
- `NetworkKey` has only the two values `start` assigns, `ssb` and `integrationTests` (Source/Onboarding/Onboarding.swift:109-113). `resume` reads `context.network` from whatever configuration is current (line 199), which other code could set to another network; such networks are not modelled.
- `resume` passes `network.name` to analytics, while `start` passes `network.string`. `NetworkLabel` keeps the two apart; Onboarding.PublishSucceeds and Onboarding.AboutLookedUp state which label each uses.
- ConnectedPeerList.MergeReference is proved only under `KeyedFor`, for the same reason as ConnectedPeerList.OneEntryPerOpenKey.
- `ConnectedPeerList.Absorb`, the loop at Source/Controller/ConnectedPeerListCoordinator.swift:153-167, carries no contract of its own; ConnectedPeerList.AbsorbSplit, ConnectedPeerList.AbsorbOnlyAddsEntries and ConnectedPeerList.AbsorbReference state what it does.

## Findings

| source | as written | input that shows it | evidently intended | confidence | as-written member | corrected member |
|---|---|---|---|---|---|---|
| Source/Onboarding/Onboarding.swift:206 | after reporting a login error to the completion, `resume` does not return: it continues to the About lookup, which calls the completion a second time | a current configuration with a buildable context, a login reply with an error, and any About reply | return after completing with `(context, botError)`, as `start` does after its login error, so the completion fires once | medium, not executed | Onboarding.ResumeLoginFailureCompletesTwice | Onboarding.ResumeCorrected |

=== FILE: connected_peer_list.dfy ===
/**
 * The view model behind the connected-peer list: the count of active peers,
 * routing a tapped row to a profile, and merging the previous rows with the
 * peers the bot currently has open connections to.
 */
module ConnectedPeerList {
  import opened Wrappers
  import opened Identities
  import opened Peers
  import opened Sequences

  /** The coordinator's published state. */
  datatype Coordinator = Coordinator(
    peers: Option<seq<PeerInfo>>,
    recentlyDownloadedPostCount: Option<int>,
    recentlyDownloadedPostDuration: Option<int>)

  function IsActive(p: PeerInfo): bool { p.isActive }

  function Id(p: PeerInfo): string { p.id }

  /** `filter { $0.isActive }.count` */
  function CountActive(s: seq<PeerInfo>): (n: nat)
    ensures n == multiset(Map(s, IsActive))[true]
  {
    if |s| == 0 then 0
    else
      var init := s[..|s| - 1];
      assert s == init + [s[|s| - 1]];
      MapAppend(init, [s[|s| - 1]], IsActive);
      assert Map([s[|s| - 1]], IsActive) == [s[|s| - 1].isActive];
      CountActive(init) + (if s[|s| - 1].isActive then 1 else 0)
  }

  /** The `connectedPeersCount` getter: nothing while no list exists, else the active rows. */
  function ConnectedPeersCount(c: Coordinator): (r: Option<nat>)
    ensures r.None? <==> c.peers.None?
    ensures c.peers.Some? ==> r.value == multiset(Map(c.peers.value, IsActive))[true]
    ensures c.peers.Some? ==> r.value <= |c.peers.value|
  {
    match c.peers
    case None => None
    case Some(s) => Some(CountActive(s))
  }

  /** The `connectedPeersCount` setter exists only for a binding and discards the value. */
  function SetConnectedPeersCount(c: Coordinator, newValue: Option<int>): (c': Coordinator)
    ensures c' == c
    ensures ConnectedPeersCount(c') == ConnectedPeersCount(c)
  {
    c
  }

  const ShowConnectedPeerProfile: string := "show_connected_peer_profile"

  /** What tapping a row does: the analytics button name tracked and the profile shown. */
  datatype Tap = Tap(trackedButton: string, profile: Identity)

  function PeerTapped(info: PeerInfo): (r: Tap)
    ensures r.trackedButton == ShowConnectedPeerProfile
    ensures info.identity.Some? ==> r.profile == info.identity.value
    ensures info.identity.None? ==> r.profile == Ed25519(info.id)
  {
    Tap(ShowConnectedPeerProfile, info.identity.GetOr(Ed25519(info.id)))
  }

  /**
   * A row appended for an open key whose About was not found carries no
   * identity, so tapping it opens the profile of that key's ed25519 feed, the
   * same identity the merge looked up; two such rows for different keys open
   * different profiles.
   */
  lemma FallbackRowOpensKeyProfile(dir: Directory, key: string, other: string)
    requires dir.about(Ed25519(key)).None?
    ensures PeerTapped(Entry(dir, key)).profile == Ed25519(key)
    ensures dir.about(Ed25519(other)).None? && other != key ==>
              PeerTapped(Entry(dir, other)).profile != PeerTapped(Entry(dir, key)).profile
  {
    if dir.about(Ed25519(other)).None? && Ed25519(other) == Ed25519(key) {
      Ed25519Injective(other, key);
    }
  }

  /** Bot statistics: the open connections as (address, public key) pairs. */
  datatype PeerStatistics = PeerStatistics(currentOpen: seq<(string, string)>)

  function OpenKeys(stats: PeerStatistics): seq<string>
  {
    seq(|stats.currentOpen|, i requires 0 <= i < |stats.currentOpen| => stats.currentOpen[i].1)
  }

  /**
   * The view database as the merge sees it: `about` is `try? bot.about(identity:)`,
   * `fromAbout` is `PeerConnectionInfo(about:)`, whose field choices are not visible.
   */
  datatype Directory = Directory(about: Identity -> Option<About>, fromAbout: About -> PeerInfo)

  /**
   * The row appended for an open key: the row built from the key's About, or,
   * when the lookup fails, an active row named by the key, with no identity.
   */
  function Entry(dir: Directory, key: string): (r: PeerInfo)
    ensures dir.about(Ed25519(key)).None? ==> r.id == key && r.name == Some(key) && r.identity.None? && r.isActive
    ensures dir.about(Ed25519(key)).Some? ==> r == dir.fromAbout(dir.about(Ed25519(key)).value)
  {
    match dir.about(Ed25519(key))
    case Some(about) => dir.fromAbout(about)
    case None => NamedPeer(key, key)
  }

  function Entries(dir: Directory, keys: seq<string>): seq<PeerInfo>
  {
    seq(|keys|, i requires 0 <= i < |keys| => Entry(dir, keys[i]))
  }

  function Deactivate(p: PeerInfo): PeerInfo
  {
    p.(isActive := false)
  }

  /** The rows whose id is not in `ids`, in their order (`removeAll(where:)`). */
  function Without(peers: seq<PeerInfo>, ids: set<string>): (r: seq<PeerInfo>)
    ensures |r| <= |peers|
  {
    if |peers| == 0 then []
    else (if peers[0].id in ids then [] else [peers[0]]) + Without(peers[1..], ids)
  }

  /** The loop over the open keys: drop rows with the key's id, then append its fresh row. */
  function Absorb(peers: seq<PeerInfo>, keys: seq<string>, dir: Directory): seq<PeerInfo>
    decreases |keys|
  {
    if |keys| == 0 then peers
    else Absorb(Without(peers, {keys[0]}) + [Entry(dir, keys[0])], keys[1..], dir)
  }

  /**
   * The merged list before sorting: previous rows marked inactive, then the open
   * keys absorbed. Earlier rows of other ids stay, inactive; every active row is
   * the fresh row of an open key.
   */
  function Merge(previous: Option<seq<PeerInfo>>, stats: PeerStatistics, dir: Directory): (r: seq<PeerInfo>)
    ensures forall p <- previous.GetOr([]) | p.id !in OpenKeys(stats) :: Deactivate(p) in r
    ensures forall q <- r | q.isActive :: exists k <- OpenKeys(stats) :: q == Entry(dir, k)
  {
    var earlier := previous.GetOr([]);
    var inactive := Map(earlier, Deactivate);
    AbsorbOnlyAddsEntries(inactive, OpenKeys(stats), dir);
    AbsorbSplit(inactive, [], OpenKeys(stats), dir);
    WithoutKeeps(inactive, KeySet(OpenKeys(stats)));
    assert inactive + [] == inactive;
    assert forall i | 0 <= i < |earlier| :: inactive[i] == Deactivate(earlier[i]);
    assert forall q <- inactive :: !q.isActive;
    Absorb(inactive, OpenKeys(stats), dir)
  }

  /** `peerConnectionInfo(from:)`: the merged rows in display order. */
  function PeerConnectionInfo(c: Coordinator, stats: PeerStatistics, dir: Directory): (r: seq<PeerInfo>)
    ensures multiset(r) == multiset(Merge(c.peers, stats, dir))
    ensures DisplayOrdered(r)
  {
    var merged := Merge(c.peers, stats, dir);
    SortedIffDisplayOrdered(Sort(merged));
    Sort(merged)
  }

  // ---------------------------------------------------------------------------
  // What the merge keeps, drops and adds

  function KeySet(keys: seq<string>): set<string>
  {
    set k | k in keys
  }

  /**
   * The keys in the order their last occurrence appears: the key whose fresh row
   * survives the loop is the one appended last.
   */
  function LastOccurrences(keys: seq<string>): (r: seq<string>)
    ensures Distinct(r)
    ensures forall k :: k in r <==> k in keys
  {
    if |keys| == 0 then []
    else (if keys[0] in keys[1..] then [] else [keys[0]]) + LastOccurrences(keys[1..])
  }

  /** `PeerConnectionInfo(about:)` keeps the looked-up key as the row id for these keys. */
  predicate KeyedFor(dir: Directory, keys: seq<string>)
  {
    forall k <- keys :: Entry(dir, k).id == k
  }

  /** `PeerConnectionInfo(about:)` makes active rows for these keys. */
  predicate ActiveFor(dir: Directory, keys: seq<string>)
  {
    forall k <- keys :: Entry(dir, k).isActive
  }

  /** `removeAll(where:)` keeps exactly the rows whose id is not in `ids`. */
  lemma {:induction false} WithoutKeeps(peers: seq<PeerInfo>, ids: set<string>)
    ensures forall p <- Without(peers, ids) :: p in peers && p.id !in ids
    ensures forall p <- peers :: p.id !in ids ==> p in Without(peers, ids)
    decreases |peers|
  {
    if |peers| > 0 {
      WithoutKeeps(peers[1..], ids);
      assert peers == [peers[0]] + peers[1..];
    }
  }

  lemma {:induction false} WithoutNothing(peers: seq<PeerInfo>)
    ensures Without(peers, {}) == peers
    decreases |peers|
  {
    if |peers| > 0 {
      WithoutNothing(peers[1..]);
      assert peers == [peers[0]] + peers[1..];
    }
  }

  lemma {:induction false} WithoutAppend(a: seq<PeerInfo>, b: seq<PeerInfo>, ids: set<string>)
    ensures Without(a + b, ids) == Without(a, ids) + Without(b, ids)
    decreases |a|
  {
    if |a| == 0 {
      assert a + b == b;
    } else {
      assert (a + b)[1..] == a[1..] + b;
      WithoutAppend(a[1..], b, ids);
    }
  }

  lemma {:induction false} WithoutTwice(a: seq<PeerInfo>, s: set<string>, t: set<string>)
    ensures Without(Without(a, s), t) == Without(a, s + t)
    decreases |a|
  {
    if |a| > 0 {
      WithoutTwice(a[1..], s, t);
      var head := if a[0].id in s then [] else [a[0]];
      WithoutAppend(head, Without(a[1..], s), t);
    }
  }

  /** Rows already in the list are only ever removed by the loop, never changed or reordered. */
  lemma {:induction false} AbsorbSplit(a: seq<PeerInfo>, b: seq<PeerInfo>, keys: seq<string>, dir: Directory)
    ensures Absorb(a + b, keys, dir) == Without(a, KeySet(keys)) + Absorb(b, keys, dir)
    decreases |keys|
  {
    if |keys| == 0 {
      WithoutNothing(a);
      assert KeySet(keys) == {};
    } else {
      var k, rest := keys[0], keys[1..];
      WithoutAppend(a, b, {k});
      assert Without(a + b, {k}) + [Entry(dir, k)] == Without(a, {k}) + (Without(b, {k}) + [Entry(dir, k)]);
      AbsorbSplit(Without(a, {k}), Without(b, {k}) + [Entry(dir, k)], rest, dir);
      WithoutTwice(a, {k}, KeySet(rest));
      assert KeySet(keys) == {k} + KeySet(rest);
    }
  }

  /** Every row the loop adds is the fresh row of one of the keys. */
  lemma {:induction false} AbsorbOnlyAddsEntries(peers: seq<PeerInfo>, keys: seq<string>, dir: Directory)
    ensures forall q <- Absorb(peers, keys, dir) :: q in peers || exists k <- keys :: q == Entry(dir, k)
    decreases |keys|
  {
    if |keys| > 0 {
      var dropped := Without(peers, {keys[0]});
      var next := dropped + [Entry(dir, keys[0])];
      assert Absorb(peers, keys, dir) == Absorb(next, keys[1..], dir);
      AbsorbOnlyAddsEntries(next, keys[1..], dir);
      WithoutKeeps(peers, {keys[0]});
      forall q <- Absorb(peers, keys, dir)
        ensures q in peers || exists k <- keys :: q == Entry(dir, k)
      {
        if q in dropped {
        } else if q == Entry(dir, keys[0]) {
          assert keys[0] in keys;
        } else {
          var k :| k in keys[1..] && q == Entry(dir, k);
          assert k in keys;
        }
      }
    }
  }

  /**
   * When fresh rows carry their key as id, the loop is equivalent to: drop every
   * row whose id is an open key, then append one fresh row per distinct key.
   */
  lemma {:induction false} AbsorbReference(peers: seq<PeerInfo>, keys: seq<string>, dir: Directory)
    requires KeyedFor(dir, keys)
    ensures Absorb(peers, keys, dir) == Without(peers, KeySet(keys)) + Entries(dir, LastOccurrences(keys))
    decreases |keys|
  {
    if |keys| == 0 {
      WithoutNothing(peers);
      assert KeySet(keys) == {};
    } else {
      var next := Without(peers, {keys[0]}) + [Entry(dir, keys[0])];
      AbsorbReference(next, keys[1..], dir);
      AbsorbReferenceStep(peers, keys, dir);
    }
  }

  /** The inductive step of `AbsorbReference`: from the claim for the later keys to the claim for all. */
  lemma AbsorbReferenceStep(peers: seq<PeerInfo>, keys: seq<string>, dir: Directory)
    requires |keys| > 0 && KeyedFor(dir, keys)
    requires var next := Without(peers, {keys[0]}) + [Entry(dir, keys[0])];
             Absorb(next, keys[1..], dir) == Without(next, KeySet(keys[1..])) + Entries(dir, LastOccurrences(keys[1..]))
    ensures Absorb(peers, keys, dir) == Without(peers, KeySet(keys)) + Entries(dir, LastOccurrences(keys))
  {
    var k, rest := keys[0], keys[1..];
    var head := if k in rest then [] else [k];
    var tail := Entries(dir, LastOccurrences(rest));
    DropThenAppend(peers, keys, dir);
    LastEntriesSplit(keys, dir);
    assert Absorb(peers, keys, dir) == Absorb(Without(peers, {k}) + [Entry(dir, k)], rest, dir);
    ConcatAssociative(Without(peers, KeySet(keys)), Entries(dir, head), tail);
  }

  lemma ConcatAssociative(a: seq<PeerInfo>, b: seq<PeerInfo>, c: seq<PeerInfo>)
    ensures a + b + c == a + (b + c)
  {
  }

  /** One round of the loop, seen after the later keys have dropped their ids. */
  lemma DropThenAppend(peers: seq<PeerInfo>, keys: seq<string>, dir: Directory)
    requires |keys| > 0 && KeyedFor(dir, keys)
    ensures var k, rest := keys[0], keys[1..];
            Without(Without(peers, {k}) + [Entry(dir, k)], KeySet(rest))
              == Without(peers, KeySet(keys)) + Entries(dir, if k in rest then [] else [k])
  {
    var k, rest := keys[0], keys[1..];
    var row := Entry(dir, k);
    WithoutAppend(Without(peers, {k}), [row], KeySet(rest));
    WithoutTwice(peers, {k}, KeySet(rest));
    assert KeySet(keys) == {k} + KeySet(rest);
    assert Without([row], KeySet(rest)) == Entries(dir, if k in rest then [] else [k]);
  }

  /** The fresh rows of the distinct keys: the first key's, unless it recurs, then the rest's. */
  lemma LastEntriesSplit(keys: seq<string>, dir: Directory)
    requires |keys| > 0
    ensures var k, rest := keys[0], keys[1..];
            Entries(dir, LastOccurrences(keys))
              == Entries(dir, if k in rest then [] else [k]) + Entries(dir, LastOccurrences(rest))
  {
    var k, rest := keys[0], keys[1..];
    var head := if k in rest then [] else [k];
    assert LastOccurrences(keys) == head + LastOccurrences(rest);
    EntriesAppend(dir, head, LastOccurrences(rest));
  }

  /** The fresh rows of two key lists, one after the other. */
  lemma EntriesAppend(dir: Directory, a: seq<string>, b: seq<string>)
    ensures Entries(dir, a + b) == Entries(dir, a) + Entries(dir, b)
  {
  }

  lemma {:induction false} DistinctOccursOnce(s: seq<string>, x: string)
    requires Distinct(s) && x in s
    ensures multiset(s)[x] == 1
    decreases |s|
  {
    assert s == [s[0]] + s[1..];
    if s[0] == x {
      assert x !in s[1..];
    } else {
      DistinctOccursOnce(s[1..], x);
    }
  }

  lemma {:induction false} AllTrue(s: seq<bool>)
    requires forall i | 0 <= i < |s| :: s[i]
    ensures multiset(s)[true] == |s|
    decreases |s|
  {
    if |s| > 0 {
      assert s == [s[0]] + s[1..];
      AllTrue(s[1..]);
    }
  }

  /**
   * Every previous row whose id is not an open key is kept, marked inactive, its
   * other fields as they were; this holds for any arrangement of the merged rows.
   */
  lemma PreviousPeersKeptInactive(c: Coordinator, stats: PeerStatistics, dir: Directory, r: seq<PeerInfo>)
    requires multiset(r) == multiset(Merge(c.peers, stats, dir))
    ensures forall p <- c.peers.GetOr([]) | p.id !in OpenKeys(stats) :: p.(isActive := false) in r
  {
    var earlier := c.peers.GetOr([]);
    var previous := Map(earlier, Deactivate);
    var keys := OpenKeys(stats);
    var kept := Without(previous, KeySet(keys));
    assert Merge(c.peers, stats, dir) == kept + Absorb([], keys, dir) by {
      AbsorbSplit(previous, [], keys, dir);
      assert previous + [] == previous;
    }
    WithoutKeeps(previous, KeySet(keys));
    forall p <- earlier | p.id !in keys
      ensures Deactivate(p) in r
    {
      var i :| 0 <= i < |earlier| && earlier[i] == p;
      assert previous[i] == Deactivate(p);
      assert Deactivate(p) in kept;
      assert Deactivate(p) in multiset(r);
    }
  }

  /** No row appears that is neither a kept previous row nor the fresh row of an open key. */
  lemma NothingElseAppears(c: Coordinator, stats: PeerStatistics, dir: Directory, r: seq<PeerInfo>)
    requires multiset(r) == multiset(Merge(c.peers, stats, dir))
    ensures forall q <- r ::
              || (exists p <- c.peers.GetOr([]) :: p.id !in OpenKeys(stats) && q == p.(isActive := false))
              || (exists k <- OpenKeys(stats) :: q == Entry(dir, k))
  {
    var earlier := c.peers.GetOr([]);
    var previous := Map(earlier, Deactivate);
    var keys := OpenKeys(stats);
    var kept := Without(previous, KeySet(keys));
    assert Merge(c.peers, stats, dir) == kept + Absorb([], keys, dir) by {
      AbsorbSplit(previous, [], keys, dir);
      assert previous + [] == previous;
    }
    AbsorbOnlyAddsEntries([], keys, dir);
    WithoutKeeps(previous, KeySet(keys));
    forall q <- r
      ensures || (exists p <- earlier :: p.id !in keys && q == Deactivate(p))
              || (exists k <- keys :: q == Entry(dir, k))
    {
      assert q in multiset(Merge(c.peers, stats, dir));
      if q in kept {
        assert q in previous && q.id !in KeySet(keys);
        var i :| 0 <= i < |previous| && previous[i] == q;
        var p := earlier[i];
        assert p in earlier;
        assert q == Deactivate(p) && p.id == q.id;
        assert p.id !in keys;
      } else {
        assert q in Absorb([], keys, dir);
      }
    }
  }

  /** With fresh rows keyed by their key, the merged list is the kept rows followed by one row per distinct key. */
  lemma MergeReference(c: Coordinator, stats: PeerStatistics, dir: Directory)
    requires KeyedFor(dir, OpenKeys(stats))
    ensures Merge(c.peers, stats, dir) ==
              Without(Map(c.peers.GetOr([]), Deactivate), KeySet(OpenKeys(stats)))
              + Entries(dir, LastOccurrences(OpenKeys(stats)))
  {
    AbsorbReference(Map(c.peers.GetOr([]), Deactivate), OpenKeys(stats), dir);
  }

  lemma OnceEach(kept: seq<PeerInfo>, last: seq<string>, keys: seq<string>)
    requires Distinct(last) && forall k :: k in last <==> k in keys
    requires forall p <- kept :: p.id !in keys
    ensures forall k <- keys :: multiset(Map(kept, Id))[k] + multiset(last)[k] == 1
  {
    forall k <- keys
      ensures multiset(Map(kept, Id))[k] + multiset(last)[k] == 1
    {
      DistinctOccursOnce(last, k);
      forall i | 0 <= i < |kept|
        ensures kept[i].id != k
      {
        assert kept[i] in kept;
      }
      assert k !in Map(kept, Id);
    }
  }

  /** The ids of any arrangement of the merged rows: the kept rows' ids plus each distinct key once. */
  lemma MergedIds(c: Coordinator, stats: PeerStatistics, dir: Directory, r: seq<PeerInfo>)
    requires KeyedFor(dir, OpenKeys(stats))
    requires multiset(r) == multiset(Merge(c.peers, stats, dir))
    ensures multiset(Map(r, Id)) ==
              multiset(Map(Without(Map(c.peers.GetOr([]), Deactivate), KeySet(OpenKeys(stats))), Id))
              + multiset(LastOccurrences(OpenKeys(stats)))
  {
    var kept := Without(Map(c.peers.GetOr([]), Deactivate), KeySet(OpenKeys(stats)));
    var last := LastOccurrences(OpenKeys(stats));
    MergeReference(c, stats, dir);
    MapPermutation(r, Merge(c.peers, stats, dir), Id);
    MapAppend(kept, Entries(dir, last), Id);
    assert Map(Entries(dir, last), Id) == last;
  }

  /**
   * Each open key ends up with exactly one row, even when the key repeats in the
   * statistics, because every earlier row with the key's id is removed first.
   */
  lemma OneEntryPerOpenKey(c: Coordinator, stats: PeerStatistics, dir: Directory, r: seq<PeerInfo>)
    requires KeyedFor(dir, OpenKeys(stats))
    requires multiset(r) == multiset(Merge(c.peers, stats, dir))
    ensures forall k <- OpenKeys(stats) :: multiset(Map(r, Id))[k] == 1
  {
    var keys := OpenKeys(stats);
    var kept := Without(Map(c.peers.GetOr([]), Deactivate), KeySet(keys));
    MergedIds(c, stats, dir, r);
    WithoutKeeps(Map(c.peers.GetOr([]), Deactivate), KeySet(keys));
    OnceEach(kept, LastOccurrences(keys), keys);
  }

  /** The one row of an open key is that key's fresh row: no earlier row with the id survives. */
  lemma OpenKeyRowIsFresh(c: Coordinator, stats: PeerStatistics, dir: Directory, r: seq<PeerInfo>)
    requires KeyedFor(dir, OpenKeys(stats))
    requires multiset(r) == multiset(Merge(c.peers, stats, dir))
    ensures forall q <- r | q.id in OpenKeys(stats) :: q == Entry(dir, q.id)
  {
    var keys := OpenKeys(stats);
    var kept := Without(Map(c.peers.GetOr([]), Deactivate), KeySet(keys));
    var last := LastOccurrences(keys);
    MergeReference(c, stats, dir);
    WithoutKeeps(Map(c.peers.GetOr([]), Deactivate), KeySet(keys));
    forall q <- r | q.id in keys
      ensures q == Entry(dir, q.id)
    {
      assert q in multiset(Merge(c.peers, stats, dir));
      assert q !in kept;
      var i :| 0 <= i < |last| && Entries(dir, last)[i] == q;
    }
  }

  /** Rows carried over from the previous list are all inactive. */
  lemma KeptRowsInactive(earlier: seq<PeerInfo>, ids: set<string>)
    ensures multiset(Map(Without(Map(earlier, Deactivate), ids), IsActive))[true] == 0
  {
    var previous := Map(earlier, Deactivate);
    var kept := Without(previous, ids);
    assert forall j | 0 <= j < |previous| :: !previous[j].isActive;
    WithoutKeeps(previous, ids);
    forall i | 0 <= i < |kept|
      ensures !kept[i].isActive
    {
      assert kept[i] in previous;
    }
    assert true !in Map(kept, IsActive);
  }

  /** Fresh rows of active keys are all active. */
  lemma FreshRowsActive(dir: Directory, keys: seq<string>, last: seq<string>)
    requires ActiveFor(dir, keys) && forall k <- last :: k in keys
    ensures multiset(Map(Entries(dir, last), IsActive))[true] == |last|
  {
    var flags := Map(Entries(dir, last), IsActive);
    forall i | 0 <= i < |flags|
      ensures flags[i]
    {
      assert last[i] in keys;
      assert flags[i] == Entry(dir, last[i]).isActive;
    }
    AllTrue(flags);
  }

  /** The active rows of any arrangement of `a + b`: those of `a` plus those of `b`. */
  lemma ActiveRowsSplit(r: seq<PeerInfo>, a: seq<PeerInfo>, b: seq<PeerInfo>)
    requires multiset(r) == multiset(a + b)
    ensures multiset(Map(r, IsActive))[true] == multiset(Map(a, IsActive))[true] + multiset(Map(b, IsActive))[true]
  {
    MapPermutation(r, a + b, IsActive);
    MapAppend(a, b, IsActive);
  }

  /**
   * After a merge, `connectedPeersCount` is the number of distinct open keys:
   * previous rows were all marked inactive and each key contributed one active row.
   */
  lemma ConnectedCountIsDistinctOpenKeys(c: Coordinator, stats: PeerStatistics, dir: Directory, r: seq<PeerInfo>)
    requires KeyedFor(dir, OpenKeys(stats)) && ActiveFor(dir, OpenKeys(stats))
    requires multiset(r) == multiset(Merge(c.peers, stats, dir))
    ensures ConnectedPeersCount(c.(peers := Some(r))) == Some(|KeySet(OpenKeys(stats))|)
  {
    var keys := OpenKeys(stats);
    var kept := Without(Map(c.peers.GetOr([]), Deactivate), KeySet(keys));
    var last := LastOccurrences(keys);
    var rows := Entries(dir, last);
    assert multiset(r) == multiset(kept + rows) by {
      MergeReference(c, stats, dir);
    }
    KeptRowsInactive(c.peers.GetOr([]), KeySet(keys));
    FreshRowsActive(dir, keys, last);
    DistinctKeyCount(keys);
    ActiveCountOfArrangement(r, kept, rows);
  }

  /** An arrangement of inactive rows followed by active rows has as many active rows as the second part. */
  lemma ActiveCountOfArrangement(r: seq<PeerInfo>, kept: seq<PeerInfo>, rows: seq<PeerInfo>)
    requires multiset(r) == multiset(kept + rows)
    requires multiset(Map(kept, IsActive))[true] == 0
    ensures CountActive(r) == multiset(Map(rows, IsActive))[true]
  {
    ActiveRowsSplit(r, kept, rows);
  }

  /** One row per distinct key: as many as the keys form a set. */
  lemma DistinctKeyCount(keys: seq<string>)
    ensures |LastOccurrences(keys)| == |KeySet(keys)|
  {
    var last := LastOccurrences(keys);
    DistinctCardinality(last);
    assert (set x | x in last) == KeySet(keys);
  }

  /** The properties above, for the list the coordinator publishes. */
  lemma PeerConnectionInfoMerges(c: Coordinator, stats: PeerStatistics, dir: Directory)
    ensures var r := PeerConnectionInfo(c, stats, dir);
      && (forall p <- c.peers.GetOr([]) | p.id !in OpenKeys(stats) :: p.(isActive := false) in r)
      && (forall q <- r ::
            || (exists p <- c.peers.GetOr([]) :: p.id !in OpenKeys(stats) && q == p.(isActive := false))
            || (exists k <- OpenKeys(stats) :: q == Entry(dir, k)))
      && (KeyedFor(dir, OpenKeys(stats)) ==>
            && (forall k <- OpenKeys(stats) :: multiset(Map(r, Id))[k] == 1)
            && (forall q <- r | q.id in OpenKeys(stats) :: q == Entry(dir, q.id)))
      && (KeyedFor(dir, OpenKeys(stats)) && ActiveFor(dir, OpenKeys(stats)) ==>
            ConnectedPeersCount(c.(peers := Some(r))) == Some(|KeySet(OpenKeys(stats))|))
  {
    var r := PeerConnectionInfo(c, stats, dir);
    PreviousPeersKeptInactive(c, stats, dir, r);
    NothingElseAppears(c, stats, dir, r);
    if KeyedFor(dir, OpenKeys(stats)) {
      OneEntryPerOpenKey(c, stats, dir, r);
      OpenKeyRowIsFresh(c, stats, dir, r);
      if ActiveFor(dir, OpenKeys(stats)) {
        ConnectedCountIsDistinctOpenKeys(c, stats, dir, r);
      }
    }
  }
}

=== FILE: identities.dfy ===
/** Feed identities and the About records the bot publishes and looks up. */
module Identities {
  import opened Wrappers

  /** A public-key handle such as "@<base64 key>.ed25519". */
  type Identity = string

  /** An About message: whose feed it describes and the display name it gives. */
  datatype About = About(identity: Identity, name: Option<string>)

  /**
   * The identity of an ed25519 feed with the given public key: "@" + key + ".ed25519",
   * the only key format the peer list supports.
   */
  function Ed25519(key: string): (id: Identity)
    ensures |id| == |key| + 9
    ensures id[0] == '@' && id[1..|key| + 1] == key && id[|key| + 1..] == ".ed25519"
  {
    "@" + key + ".ed25519"
  }

  /** Different keys never share an identity, so each key is looked up on its own. */
  lemma Ed25519Injective(a: string, b: string)
    requires Ed25519(a) == Ed25519(b)
    ensures a == b
  {
    assert |a| == |b|;
    assert a == Ed25519(a)[1..|a| + 1];
  }
}

=== FILE: onboarding.dfy ===
/**
 * The onboarding workflow: `start` creates an identity, logs in and publishes an
 * About, and only then saves the configuration and marks the identity started;
 * `reset` undoes a failed attempt's session; `resume` rebuilds the context of an
 * identity whose configuration was saved.
 *
 * Every collaborator (secret creation, login, publish, about lookup, logout, the
 * birthdate and name checks, `Context(from:)`) is an input: an oracle value or
 * the reply it gives. Effects go to an explicit `World`: the session's identity,
 * the configuration store, the status map, and a trace of every call, analytics
 * or crash-reporting event and completion, in order.
 */
module Onboarding {
  import opened Wrappers
  import opened Identities

  /** Birthdates are opaque here; the environment's `olderThan` reads them. */
  type Date = int

  const MinimumAge: nat := 16
  const CiNetworkArgument: string := "use-ci-network"

  /** An underlying `Error` from a collaborator. */
  datatype Cause = Cause(description: string)

  datatype OnboardingError =
    | InvalidCountryCode
    | InvalidPhoneNumber
    | InvalidIdentity(identity: string)
    | InvalidVerificationCode
    | StaleVerificationCode
    | Other(cause: Option<Cause>)

  /** `OnboardingError.optional`: no error stays no error, any error becomes `.other`. */
  function OptionalError(error: Option<Cause>): (r: Option<OnboardingError>)
    ensures r.None? <==> error.None?
    ensures r.Some? ==> r.value.Other? && r.value.cause == error
  {
    match error
    case None => None
    case Some(_) => Some(Other(error))
  }

  /** The error an `OnboardingError?` carries, if any. */
  function UnderlyingCause(e: Option<OnboardingError>): Option<Cause>
  {
    match e
    case Some(Other(cause)) => cause
    case _ => None
  }

  /** Wrapping with `optional` loses nothing: the original error can be read back. */
  lemma OptionalErrorRoundTrip(error: Option<Cause>)
    ensures UnderlyingCause(OptionalError(error)) == error
  {
  }

  datatype StartError =
    | ApiError(cause: Option<Cause>)
    | BotError(cause: Option<Cause>)
    | CannotOnboardWhileLoggedIn
    | ConfigurationFailed
    | InvalidBirthdate
    | InvalidPhoneNumber
    | InvalidName
    | ResumeNotNecessary
    | SecretFailed(cause: Option<Cause>)
    | Failed(failure: Cause)

  datatype NetworkKey = Ssb | IntegrationTests

  /** Which rendering of a network an identify call receives: `network.string` or `network.name`. */
  datatype NetworkLabel = KeyString(key: NetworkKey) | DisplayName(key: NetworkKey)

  /** A new keypair: the identity and the private material behind it. */
  datatype Secret = Secret(identity: Identity, material: string)

  datatype Configuration = Configuration(
    name: string,
    secret: Secret,
    network: Option<NetworkKey>,
    joinedPlanetarySystem: bool)

  /** The in-memory onboarding context (the bot handle is left out). */
  datatype Context = Context(identity: Identity, network: NetworkKey, signingKey: Option<string>, about: Option<About>)

  datatype Status = NotStarted | Started

  /** `Onboarding.status(for:)`: an identity never written reads as not started. */
  function StatusOf(status: map<Identity, Status>, identity: Identity): Status
  {
    if identity in status then status[identity] else NotStarted
  }

  datatype Event =
    | TrackOnboardingStart
    | TrackOnboardingEnd
    | AnalyticsIdentify(identifier: Identity, name: Option<string>, networkLabel: NetworkLabel)
    | AnalyticsForget
    | CrashReportingIdentify(identifier: Identity, name: Option<string>, network: NetworkKey)
    | ErrorReported(cause: Cause)
    | CreateSecret
    | Login(configuration: Configuration)
    | Publish(about: About)
    | Logout
    | LookupAbout(identity: Identity)
    | ConfigurationApplied(configuration: Configuration)
    | ConfigurationAdded(configuration: Configuration)
    | ConfigurationsSaved
    | StatusSet(identity: Identity, status: Status)
    | StartCompleted(context: Option<Context>, error: Option<StartError>)
    | ResetCompleted

  /**
   * Everything onboarding can change: the identity the bot is logged in as, the
   * current configuration, the configuration list and its saved copy, the
   * onboarding status map, and the trace of events.
   */
  datatype World = World(
    session: Option<Identity>,
    current: Option<Configuration>,
    configurations: seq<Configuration>,
    saved: seq<Configuration>,
    status: map<Identity, Status>,
    trace: seq<Event>,
    tally: Tally)

  /** Collaborators whose answers do not depend on the attempt's replies. */
  datatype Environment = Environment(
    olderThan: (Date, nat) -> bool,
    isValidName: string -> bool,
    arguments: seq<string>,
    contextFrom: Configuration -> Option<Context>)

  datatype SecretReply = SecretReply(secret: Option<Secret>, error: Option<Cause>)

  /** What the collaborators answer during one `start`: secret, clock, login and publish errors. */
  datatype StartReplies = StartReplies(createSecret: SecretReply, timestamp: string, login: Option<Cause>, publish: Option<Cause>)

  /** What the collaborators answer during one `resume`. */
  datatype ResumeReplies = ResumeReplies(login: Option<Cause>, about: Option<About>, aboutError: Option<Cause>)

  // ---------------------------------------------------------------------------
  // Counting events in a trace

  /** How many events of each counted kind a trace holds; reports and identify calls are not counted. */
  datatype Tally = Tally(
    completions: nat,
    trackStarts: nat,
    trackEnds: nat,
    secretRequests: nat,
    logins: nat,
    publishes: nat,
    lookups: nat,
    logouts: nat,
    forgets: nat,
    resetCompletions: nat,
    statusWrites: nat)

  const NoEvents := Tally(0, 0, 0, 0, 0, 0, 0, 0, 0, 0, 0)

  /** `c` after one more event `e`. */
  function Tick(c: Tally, e: Event): Tally
  {
    Tally(
      c.completions + (if e.StartCompleted? then 1 else 0),
      c.trackStarts + (if e.TrackOnboardingStart? then 1 else 0),
      c.trackEnds + (if e.TrackOnboardingEnd? then 1 else 0),
      c.secretRequests + (if e.CreateSecret? then 1 else 0),
      c.logins + (if e.Login? then 1 else 0),
      c.publishes + (if e.Publish? then 1 else 0),
      c.lookups + (if e.LookupAbout? then 1 else 0),
      c.logouts + (if e.Logout? then 1 else 0),
      c.forgets + (if e.AnalyticsForget? then 1 else 0),
      c.resetCompletions + (if e.ResetCompleted? then 1 else 0),
      c.statusWrites + (if e.StatusSet? then 1 else 0))
  }

  /** `c` after the events of `u`, first to last. */
  function TallyAfter(c: Tally, u: seq<Event>): Tally
    decreases |u|
  {
    if |u| == 0 then c else TallyAfter(Tick(c, u[0]), u[1..])
  }

  /** The tally of a whole trace. */
  function TallyOf(t: seq<Event>): Tally
  {
    TallyAfter(NoEvents, t)
  }

  /** Counting `t + u` is counting `t`, then carrying on through `u`. */
  lemma {:induction false} TallyAfterAppend(c: Tally, t: seq<Event>, u: seq<Event>)
    ensures TallyAfter(c, t + u) == TallyAfter(TallyAfter(c, t), u)
    decreases |t|
  {
    if |t| == 0 {
      assert t + u == u;
    } else {
      assert (t + u)[1..] == t[1..] + u;
      TallyAfterAppend(Tick(c, t[0]), t[1..], u);
    }
  }

  /** A world whose running tally agrees with its trace. */
  predicate Tallied(w: World)
  {
    w.tally == TallyOf(w.trace)
  }

  /**
   * Records one event. The world keeps a running tally next to the trace so
   * that contracts can count calls without re-reading the trace.
   */
  function Emit(w: World, e: Event): (w': World)
    ensures w' == w.(trace := w.trace + [e], tally := Tick(w.tally, e))
  {
    w.(trace := w.trace + [e], tally := Tick(w.tally, e))
  }

  /** Emitting keeps the running tally in step with the trace. */
  lemma EmitKeepsTallied(w: World, e: Event)
    requires Tallied(w)
    ensures Tallied(Emit(w, e))
    ensures Emit(w, e).tally == Tick(TallyOf(w.trace), e)
  {
    TallyAfterAppend(NoEvents, w.trace, [e]);
  }

  /**
   * `Log.optional(error)` and `CrashReporting.reportIfNeeded(error:)`: an error
   * is reported once, no error leaves the world as it was.
   */
  function Report(w: World, error: Option<Cause>): (w': World)
    ensures w' == w.(trace := w'.trace) && w.trace <= w'.trace
    ensures error.None? ==> w' == w
    ensures error.Some? ==> w'.trace == w.trace + [ErrorReported(error.value)]
  {
    match error
    case Some(cause) => Emit(w, ErrorReported(cause))
    case None => w
  }

  /**
   * `CrashReporting.identify` then `Analytics.identify`, both with the About's
   * identity and name: crash reporting gets the network key, analytics the
   * label the caller chose. Nothing else changes.
   */
  function Identify(w: World, about: About, network: NetworkKey, networkLabel: NetworkLabel): (w': World)
    ensures w' == w.(trace := w'.trace)
    ensures w'.trace == w.trace + [CrashReportingIdentify(about.identity, about.name, network),
                                   AnalyticsIdentify(about.identity, about.name, networkLabel)]
    ensures w'.tally == w.tally
  {
    Emit(Emit(w, CrashReportingIdentify(about.identity, about.name, network)),
         AnalyticsIdentify(about.identity, about.name, networkLabel))
  }

  /** Calls the completion handler once. */
  function Complete(w: World, context: Option<Context>, error: Option<StartError>): (w': World)
    ensures w' == w.(trace := w.trace + [StartCompleted(context, error)], tally := w.tally.(completions := w.tally.completions + 1))
  {
    Emit(w, StartCompleted(context, error))
  }

  // ---------------------------------------------------------------------------
  // start

  /** The three local checks `start` makes before any call. */
  predicate Admitted(w: World, env: Environment, birthdate: Date, name: string)
  {
    env.olderThan(birthdate, MinimumAge) && env.isValidName(name) && w.session.None?
  }

  /** The configuration `start` builds around a new secret. */
  function StartConfiguration(secret: Secret, name: string, timestamp: string, arguments: seq<string>): (c: Configuration)
    ensures c.secret == secret && c.joinedPlanetarySystem
    ensures c.name == name + " (" + timestamp + ")"
    ensures c.network.Some? && (c.network.value == IntegrationTests <==> CiNetworkArgument in arguments)
  {
    var network := if CiNetworkArgument in arguments then IntegrationTests else Ssb;
    Configuration(name + " (" + timestamp + ")", secret, Some(network), true)
  }

  function ConfigurationFor(env: Environment, name: string, replies: StartReplies): Configuration
    requires replies.createSecret.secret.Some?
  {
    StartConfiguration(replies.createSecret.secret.value, name, replies.timestamp, env.arguments)
  }

  /**
   * `start` force-unwraps `Context(from: configuration)`: whenever that line is
   * reached, the collaborator must build a context.
   */
  predicate ContextBuildable(w: World, env: Environment, birthdate: Date, name: string, replies: StartReplies)
  {
    Admitted(w, env, birthdate, name) && replies.createSecret.secret.Some? ==>
      env.contextFrom(ConfigurationFor(env, name, replies)).Some?
  }

  /**
   * The outcome `start` reports, as a flat decision table: the first failing
   * step's error, or none when every step succeeds.
   */
  function StartVerdict(w: World, env: Environment, birthdate: Date, name: string, replies: StartReplies): (v: Option<StartError>)
    ensures v != Some(StartError.InvalidPhoneNumber)
  {
    if !env.olderThan(birthdate, MinimumAge) then Some(InvalidBirthdate)
    else if !env.isValidName(name) then Some(StartError.InvalidName)
    else if w.session.Some? then Some(CannotOnboardWhileLoggedIn)
    else SecretVerdict(replies)
  }

  /** The outcome once the secret has been asked for. */
  function SecretVerdict(replies: StartReplies): Option<StartError>
  {
    if replies.createSecret.secret.None? then Some(SecretFailed(replies.createSecret.error))
    else LoginVerdict(replies)
  }

  /** The outcome once login has been asked for. */
  function LoginVerdict(replies: StartReplies): Option<StartError>
  {
    if replies.login.Some? then Some(BotError(replies.login))
    else PublishVerdict(replies)
  }

  /** The outcome once the About has been published. */
  function PublishVerdict(replies: StartReplies): Option<StartError>
  {
    if replies.publish.Some? then Some(BotError(replies.publish)) else None
  }

  predicate ReachesLogin(w: World, env: Environment, birthdate: Date, name: string, replies: StartReplies)
  {
    Admitted(w, env, birthdate, name) && replies.createSecret.secret.Some?
  }

  predicate ReachesPublish(w: World, env: Environment, birthdate: Date, name: string, replies: StartReplies)
  {
    ReachesLogin(w, env, birthdate, name, replies) && replies.login.None?
  }

  /**
   * What the remainder of an attempt did between `w` and `w'`: the trace only
   * grew, the session is left as given, and on failure the last event is the
   * completion carrying `verdict` and the stores are untouched.
   */
  predicate Concluded(w: World, w': World, verdict: Option<StartError>, session: Option<Identity>)
  {
    && w.trace < w'.trace
    && w'.session == session
    && (verdict.Some? ==>
          && w'.trace[|w'.trace| - 1] == StartCompleted(None, verdict)
          && w'.status == w.status && w'.current == w.current
          && w'.configurations == w.configurations && w'.saved == w.saved)
  }

  /**
   * The calls the remainder of an attempt made: one completion, the given
   * numbers of logins and publishes, and on success one onboarding-end event
   * and one status write.
   */
  predicate Counted(w: World, w': World, verdict: Option<StartError>, logins: nat, publishes: nat)
  {
    w'.tally == w.tally.(
      completions := w.tally.completions + 1,
      logins := w.tally.logins + logins,
      publishes := w.tally.publishes + publishes,
      trackEnds := w.tally.trackEnds + (if verdict.None? then 1 else 0),
      statusWrites := w.tally.statusWrites + (if verdict.None? then 1 else 0))
  }

  /**
   * A successful attempt: crash reporting and analytics identify the published
   * About (analytics with the network's key string), then the completion with
   * `context`, then `didStart`'s writes, in that order.
   */
  predicate Succeeded(w: World, w': World, configuration: Configuration, context: Context, identity: Identity)
  {
    && |w'.trace| >= |w.trace| + 6
    && (configuration.network.Some? && context.about.Some? ==>
          var about, network := context.about.value, configuration.network.value;
          && |w'.trace| >= |w.trace| + 8
          && w'.trace[|w'.trace| - 8..|w'.trace| - 6] == [
               CrashReportingIdentify(about.identity, about.name, network),
               AnalyticsIdentify(about.identity, about.name, KeyString(network))])
    && w'.trace[|w'.trace| - 6..] == [
         StartCompleted(Some(context), None),
         ConfigurationApplied(configuration), ConfigurationAdded(configuration),
         ConfigurationsSaved, TrackOnboardingEnd, StatusSet(identity, Started)]
    && w'.current == Some(configuration)
    && w'.configurations == w.configurations + [configuration]
    && w'.saved == w'.configurations
    && w'.status == w.status[identity := Started]
  }

  /**
   * `Onboarding.start`. The phone number is accepted and ignored: its check is
   * commented out in the source.
   */
  function Start(w: World, env: Environment, birthdate: Date, phone: string, name: string, replies: StartReplies): (w': World)
    requires ContextBuildable(w, env, birthdate, name, replies)
    ensures w.trace < w'.trace
    // The attempt ends with the completion carrying the first failing step's error.
    ensures StartVerdict(w, env, birthdate, name, replies).Some? ==>
              w'.trace[|w'.trace| - 1] == StartCompleted(None, StartVerdict(w, env, birthdate, name, replies))
    // A failed local check reports its error and does nothing else.
    ensures !Admitted(w, env, birthdate, name) ==>
              w' == Emit(w, StartCompleted(None, StartVerdict(w, env, birthdate, name, replies)))
    // The session is the new identity exactly when login succeeded.
    ensures w'.session == (if ReachesPublish(w, env, birthdate, name, replies)
                           then Some(replies.createSecret.secret.value.identity) else w.session)
    // Login gets the new configuration; publish gets the secret's identity with the raw name.
    ensures var n := |w.trace| + 2 + (if replies.createSecret.error.Some? then 1 else 0);
            ReachesLogin(w, env, birthdate, name, replies) ==>
              && |w'.trace| > n + 1
              && w'.trace[n] == Login(ConfigurationFor(env, name, replies))
              && (replies.login.None? ==> w'.trace[n + 1] == Publish(About(replies.createSecret.secret.value.identity, Some(name))))
    // Nothing is stored unless every step succeeded.
    ensures StartVerdict(w, env, birthdate, name, replies).Some? ==>
              && w'.status == w.status && w'.current == w.current
              && w'.configurations == w.configurations && w'.saved == w.saved
  {
    if !env.olderThan(birthdate, MinimumAge) then Complete(w, None, Some(InvalidBirthdate))
    else if !env.isValidName(name) then Complete(w, None, Some(StartError.InvalidName))
    else if w.session.Some? then Complete(w, None, Some(CannotOnboardWhileLoggedIn))
    else
      var asked := Emit(Emit(w, TrackOnboardingStart), CreateSecret);
      var w' := SecretCreated(asked, env, name, replies);
      w'
  }

  /** The `createSecret` callback. */
  function SecretCreated(w: World, env: Environment, name: string, replies: StartReplies): (w': World)
    requires replies.createSecret.secret.Some? ==> env.contextFrom(ConfigurationFor(env, name, replies)).Some?
    ensures Concluded(w, w', SecretVerdict(replies),
              if replies.createSecret.secret.Some? && replies.login.None?
              then Some(replies.createSecret.secret.value.identity) else w.session)
    // An error from `createSecret` is reported before anything else happens.
    ensures replies.createSecret.error.Some? ==> w'.trace[|w.trace|] == ErrorReported(replies.createSecret.error.value)
    // Without a secret: the report, if any, then the completion, and nothing else.
    ensures replies.createSecret.secret.None? ==>
              w'.trace == w.trace + (if replies.createSecret.error.Some? then [ErrorReported(replies.createSecret.error.value)] else [])
                          + [StartCompleted(None, Some(SecretFailed(replies.createSecret.error)))]
    // With one: login with the new configuration, then, after a clean login, publish the identity with the raw name.
    ensures var n := |w.trace| + (if replies.createSecret.error.Some? then 1 else 0);
            replies.createSecret.secret.Some? ==>
              && |w'.trace| > n + 1
              && w'.trace[n] == Login(ConfigurationFor(env, name, replies))
              && (replies.login.None? ==> w'.trace[n + 1] == Publish(About(replies.createSecret.secret.value.identity, Some(name))))
  {
    var reported := Report(w, replies.createSecret.error);
    match replies.createSecret.secret
    case None => Complete(reported, None, Some(SecretFailed(replies.createSecret.error)))
    case Some(secret) =>
      var configuration := ConfigurationFor(env, name, replies);
      var context := env.contextFrom(configuration).value;
      var loggedIn := if replies.login.None? then reported.(session := Some(secret.identity)) else reported;
      LoginReplied(Emit(loggedIn, Login(configuration)), configuration, context, secret, name, replies)
  }

  /** The `login` callback. */
  function LoginReplied(w: World, configuration: Configuration, context: Context, secret: Secret, name: string, replies: StartReplies): (w': World)
    ensures Concluded(w, w', LoginVerdict(replies), w.session)
    ensures replies.login.Some? ==>
              w'.trace == w.trace + [ErrorReported(replies.login.value), StartCompleted(None, Some(BotError(replies.login)))]
    ensures replies.login.None? ==> w'.trace[|w.trace|] == Publish(About(secret.identity, Some(name)))
  {
    var reported := Report(w, replies.login);
    if replies.login.Some? then Complete(reported, None, Some(BotError(replies.login)))
    else
      var about := About(secret.identity, Some(name));
      PublishReplied(Emit(reported, Publish(about)), configuration, context, secret, about, replies)
  }

  /** The `publish` callback: identify, complete, then `didStart`. */
  function PublishReplied(w: World, configuration: Configuration, context: Context, secret: Secret, about: About, replies: StartReplies): (w': World)
    ensures Concluded(w, w', PublishVerdict(replies), w.session)
    ensures replies.publish.Some? ==>
              w'.trace == w.trace + [ErrorReported(replies.publish.value), StartCompleted(None, Some(BotError(replies.publish)))]
  {
    var reported := Report(w, replies.publish);
    if replies.publish.Some? then Complete(reported, None, Some(BotError(replies.publish)))
    else
      var identified :=
        match configuration.network
        case Some(network) => Identify(reported, about, network, KeyString(network))
        case None => reported;
      DidStart(Complete(identified, Some(context.(about := Some(about))), None), configuration, secret)
  }

  /**
   * `start` calls each collaborator only once the step before it succeeded, and
   * completes exactly once: tracking and secret creation follow the local
   * checks, login follows a secret, publish follows login, and onboarding end
   * and the status write follow a fully successful attempt.
   */
  lemma StartCounts(w: World, env: Environment, birthdate: Date, phone: string, name: string, replies: StartReplies)
    requires ContextBuildable(w, env, birthdate, name, replies)
    ensures var w' := Start(w, env, birthdate, phone, name, replies);
            var admitted := if Admitted(w, env, birthdate, name) then 1 else 0;
            var success := if StartVerdict(w, env, birthdate, name, replies).None? then 1 else 0;
            w'.tally == w.tally.(
              completions := w.tally.completions + 1,
              trackStarts := w.tally.trackStarts + admitted,
              secretRequests := w.tally.secretRequests + admitted,
              logins := w.tally.logins + (if ReachesLogin(w, env, birthdate, name, replies) then 1 else 0),
              publishes := w.tally.publishes + (if ReachesPublish(w, env, birthdate, name, replies) then 1 else 0),
              trackEnds := w.tally.trackEnds + success,
              statusWrites := w.tally.statusWrites + success)
  {
    if Admitted(w, env, birthdate, name) {
      SecretCreatedCounts(Emit(Emit(w, TrackOnboardingStart), CreateSecret), env, name, replies);
    }
  }

  lemma SecretCreatedCounts(w: World, env: Environment, name: string, replies: StartReplies)
    requires replies.createSecret.secret.Some? ==> env.contextFrom(ConfigurationFor(env, name, replies)).Some?
    ensures Counted(w, SecretCreated(w, env, name, replies), SecretVerdict(replies),
                    if replies.createSecret.secret.Some? then 1 else 0,
                    if replies.createSecret.secret.Some? && replies.login.None? then 1 else 0)
  {
    if replies.createSecret.secret.Some? {
      var secret := replies.createSecret.secret.value;
      var configuration := ConfigurationFor(env, name, replies);
      var reported := Report(w, replies.createSecret.error);
      var loggedIn := if replies.login.None? then reported.(session := Some(secret.identity)) else reported;
      LoginRepliedCounts(Emit(loggedIn, Login(configuration)), configuration, env.contextFrom(configuration).value, secret, name, replies);
    }
  }

  lemma LoginRepliedCounts(w: World, configuration: Configuration, context: Context, secret: Secret, name: string, replies: StartReplies)
    ensures Counted(w, LoginReplied(w, configuration, context, secret, name, replies), LoginVerdict(replies),
                    0, if replies.login.None? then 1 else 0)
  {
    if replies.login.None? {
      var about := About(secret.identity, Some(name));
      PublishRepliedCounts(Emit(Report(w, replies.login), Publish(about)), configuration, context, secret, about, replies);
    }
  }

  lemma PublishRepliedCounts(w: World, configuration: Configuration, context: Context, secret: Secret, about: About, replies: StartReplies)
    ensures Counted(w, PublishReplied(w, configuration, context, secret, about, replies), PublishVerdict(replies), 0, 0)
  {
  }

  /**
   * A successful attempt: completion with the published About, then the
   * configuration is applied, added, saved, onboarding end is tracked, and the
   * new identity is marked started, in that order.
   */
  lemma StartSucceeds(w: World, env: Environment, birthdate: Date, phone: string, name: string, replies: StartReplies)
    requires ContextBuildable(w, env, birthdate, name, replies)
    requires StartVerdict(w, env, birthdate, name, replies).None?
    ensures var secret := replies.createSecret.secret.value;
            var configuration := ConfigurationFor(env, name, replies);
            Succeeded(w, Start(w, env, birthdate, phone, name, replies), configuration,
                      env.contextFrom(configuration).value.(about := Some(About(secret.identity, Some(name)))),
                      secret.identity)
    // Before completing, the new identity and the raw name are identified, analytics with the network key string.
    ensures var w' := Start(w, env, birthdate, phone, name, replies);
            var identity, network := replies.createSecret.secret.value.identity, ConfigurationFor(env, name, replies).network.value;
            && |w'.trace| >= 8
            && w'.trace[|w'.trace| - 8..|w'.trace| - 6] == [
                 CrashReportingIdentify(identity, Some(name), network),
                 AnalyticsIdentify(identity, Some(name), KeyString(network))]
  {
    SecretSucceeds(Emit(Emit(w, TrackOnboardingStart), CreateSecret), env, name, replies);
  }

  lemma SecretSucceeds(w: World, env: Environment, name: string, replies: StartReplies)
    requires replies.createSecret.secret.Some? ==> env.contextFrom(ConfigurationFor(env, name, replies)).Some?
    requires SecretVerdict(replies).None?
    ensures var secret := replies.createSecret.secret.value;
            var configuration := ConfigurationFor(env, name, replies);
            Succeeded(w, SecretCreated(w, env, name, replies), configuration,
                      env.contextFrom(configuration).value.(about := Some(About(secret.identity, Some(name)))),
                      secret.identity)
  {
    var secret := replies.createSecret.secret.value;
    var configuration := ConfigurationFor(env, name, replies);
    var loggedIn := Report(w, replies.createSecret.error).(session := Some(secret.identity));
    LoginSucceeds(Emit(loggedIn, Login(configuration)), configuration, env.contextFrom(configuration).value, secret, name, replies);
  }

  lemma LoginSucceeds(w: World, configuration: Configuration, context: Context, secret: Secret, name: string, replies: StartReplies)
    requires LoginVerdict(replies).None?
    ensures Succeeded(w, LoginReplied(w, configuration, context, secret, name, replies),
                      configuration, context.(about := Some(About(secret.identity, Some(name)))), secret.identity)
  {
    var about := About(secret.identity, Some(name));
    PublishSucceeds(Emit(w, Publish(about)), configuration, context, secret, about, replies);
  }

  lemma PublishSucceeds(w: World, configuration: Configuration, context: Context, secret: Secret, about: About, replies: StartReplies)
    requires PublishVerdict(replies).None?
    ensures Succeeded(w, PublishReplied(w, configuration, context, secret, about, replies),
                      configuration, context.(about := Some(about)), secret.identity)
  {
  }

  /**
   * `Onboarding.didStart`: the configuration becomes current, joins the list and
   * is persisted, onboarding end is tracked, and only then is the new identity
   * marked started.
   */
  function DidStart(w: World, configuration: Configuration, secret: Secret): (w': World)
    ensures w'.current == Some(configuration)
    // The earlier configurations stay, in order, and the new one is last; what is saved is the whole list.
    ensures |w'.configurations| == |w.configurations| + 1
    ensures w'.configurations[..|w.configurations|] == w.configurations
    ensures w'.configurations[|w.configurations|] == configuration && w'.saved == w'.configurations
    // The new identity is started; every other identity keeps its status, or its absence.
    ensures secret.identity in w'.status && w'.status[secret.identity] == Started
    ensures forall id | id != secret.identity :: (id in w'.status <==> id in w.status)
    ensures forall id | id in w.status && id != secret.identity :: w'.status[id] == w.status[id]
    ensures w'.session == w.session
    ensures w'.trace == w.trace + [
              ConfigurationApplied(configuration), ConfigurationAdded(configuration),
              ConfigurationsSaved, TrackOnboardingEnd, StatusSet(secret.identity, Started)]
    ensures w'.tally == w.tally.(
              trackEnds := w.tally.trackEnds + 1,
              statusWrites := w.tally.statusWrites + 1)
  {
    var events := [ConfigurationApplied(configuration), ConfigurationAdded(configuration),
                   ConfigurationsSaved, TrackOnboardingEnd, StatusSet(secret.identity, Started)];
    w.(current := Some(configuration),
       configurations := w.configurations + [configuration],
       saved := w.configurations + [configuration],
       status := w.status[secret.identity := Started],
       trace := w.trace + events,
       tally := w.tally.(trackEnds := w.tally.trackEnds + 1, statusWrites := w.tally.statusWrites + 1))
  }

  // ---------------------------------------------------------------------------
  // reset

  /**
   * `Onboarding.reset`: log out, report a logout error, forget the analytics
   * identity and complete. The bot leaves the session only when logout succeeds;
   * no status or configuration is touched.
   */
  function Reset(w: World, logoutError: Option<Cause>): (w': World)
    ensures w.trace < w'.trace && w'.trace[|w'.trace| - 1] == ResetCompleted
    // Logout comes first; its error, if any, is reported right after it.
    ensures w'.trace == w.trace + [Logout] + (if logoutError.Some? then [ErrorReported(logoutError.value)] else [])
                        + [AnalyticsForget, ResetCompleted]
    ensures w'.tally == w.tally.(
              logouts := w.tally.logouts + 1,
              forgets := w.tally.forgets + 1,
              resetCompletions := w.tally.resetCompletions + 1)
    ensures w'.session == (if logoutError.None? then None else w.session)
    ensures w'.status == w.status && w'.current == w.current
    ensures w'.configurations == w.configurations && w'.saved == w.saved
  {
    var loggedOut := Emit(w, Logout);
    var left := if logoutError.None? then loggedOut.(session := None) else loggedOut;
    Emit(Emit(Report(left, logoutError), AnalyticsForget), ResetCompleted)
  }

  /** After a reset whose logout succeeded, only the birthdate and name checks stand between `start` and its calls. */
  lemma ResetThenStartAdmitted(w: World, env: Environment, birthdate: Date, name: string)
    ensures Admitted(Reset(w, None), env, birthdate, name) <==> env.olderThan(birthdate, MinimumAge) && env.isValidName(name)
  {
  }

  /**
   * Resetting again after a clean reset changes nothing but the trace: the
   * session stays empty, whatever the second logout reports, and the stores
   * and status map stay as they were.
   */
  lemma ResetTwiceIsResetOnce(w: World, second: Option<Cause>)
    ensures var once := Reset(w, None);
            Reset(once, second) == once.(trace := Reset(once, second).trace, tally := Reset(once, second).tally)
  {
  }

  /**
   * A failed `start` followed by `reset` leaves the stores and the status map as
   * they were before the attempt; with a clean logout the session is empty again.
   */
  lemma FailedStartThenResetRestores(w: World, env: Environment, birthdate: Date, phone: string, name: string, replies: StartReplies, logoutError: Option<Cause>)
    requires ContextBuildable(w, env, birthdate, name, replies)
    requires StartVerdict(w, env, birthdate, name, replies).Some?
    ensures var w' := Reset(Start(w, env, birthdate, phone, name, replies), logoutError);
            && w'.status == w.status && w'.current == w.current
            && w'.configurations == w.configurations && w'.saved == w.saved
            && (logoutError.None? ==> w'.session.None?)
            && w'.tally.completions == w.tally.completions + 1
            && w'.tally.statusWrites == w.tally.statusWrites
  {
    StartCounts(w, env, birthdate, phone, name, replies);
  }

  // ---------------------------------------------------------------------------
  // resume

  /**
   * The context `resume` rebuilds from the current configuration, if it can:
   * there is one exactly when a configuration is current and yields a context.
   */
  function ResumeContext(w: World, env: Environment): (r: Option<Context>)
    ensures r.Some? <==> w.current.Some? && env.contextFrom(w.current.value).Some?
    ensures r.Some? ==> r == env.contextFrom(w.current.value)
  {
    match w.current
    case None => None
    case Some(configuration) => env.contextFrom(configuration)
  }

  /** The completion `resume` ends with once the context exists: the about lookup decides. */
  function AboutVerdict(context: Context, replies: ResumeReplies): Event
  {
    match replies.about
    case None => StartCompleted(Some(context), Some(BotError(replies.aboutError)))
    case Some(about) => StartCompleted(Some(context.(about := Some(about))), None)
  }

  /**
   * `Onboarding.resume` as written: after a login error it completes with that
   * error and then carries on to the about lookup, which completes again.
   */
  function Resume(w: World, env: Environment, replies: ResumeReplies): (w': World)
    ensures w.trace < w'.trace
    ensures ResumeContext(w, env).None? ==> w' == Emit(w, StartCompleted(None, Some(ConfigurationFailed)))
    ensures ResumeContext(w, env).Some? ==>
              && w'.trace[|w'.trace| - 1] == AboutVerdict(ResumeContext(w, env).value, replies)
              && w'.tally == w.tally.(
                   completions := w.tally.completions + (if replies.login.Some? then 2 else 1),
                   logins := w.tally.logins + 1,
                   lookups := w.tally.lookups + 1)
              && w'.session == (if replies.login.None? then Some(w.current.value.secret.identity) else w.session)
    // Login uses the current configuration; the lookup asks for the context's identity.
    ensures ResumeContext(w, env).Some? ==>
              && |w'.trace| >= |w.trace| + 3
              && w'.trace[|w.trace|] == Login(w.current.value)
              && w'.trace[|w.trace| + (if replies.login.Some? then 2 else 1)] == LookupAbout(ResumeContext(w, env).value.identity)
    // Resuming never writes a status or a configuration.
    ensures w'.status == w.status && w'.current == w.current
    ensures w'.configurations == w.configurations && w'.saved == w.saved
  {
    match ResumeContext(w, env)
    case None => Complete(w, None, Some(ConfigurationFailed))
    case Some(context) =>
      var configuration := w.current.value;
      var loggedIn := if replies.login.None? then w.(session := Some(configuration.secret.identity)) else w;
      var attempted := Emit(loggedIn, Login(configuration));
      var answered := if replies.login.Some? then Complete(attempted, Some(context), Some(BotError(replies.login))) else attempted;
      AboutLookedUp(Emit(answered, LookupAbout(context.identity)), context, replies)
  }

  /**
   * `resume` as evidently intended: a login error completes the attempt and
   * nothing follows, as in `start`.
   */
  function ResumeCorrected(w: World, env: Environment, replies: ResumeReplies): (w': World)
    ensures w.trace < w'.trace
    // Exactly one completion, whatever happens.
    ensures w'.tally.completions == w.tally.completions + 1
    ensures ResumeContext(w, env).None? ==> w' == Emit(w, StartCompleted(None, Some(ConfigurationFailed)))
    ensures ResumeContext(w, env).Some? ==>
              && w'.trace[|w'.trace| - 1] ==
                   (if replies.login.Some? then StartCompleted(ResumeContext(w, env), Some(BotError(replies.login)))
                    else AboutVerdict(ResumeContext(w, env).value, replies))
              && w'.tally == w.tally.(
                   completions := w.tally.completions + 1,
                   logins := w.tally.logins + 1,
                   lookups := w.tally.lookups + (if replies.login.None? then 1 else 0))
              && w'.session == (if replies.login.None? then Some(w.current.value.secret.identity) else w.session)
    ensures ResumeContext(w, env).Some? ==>
              && w'.trace[|w.trace|] == Login(w.current.value)
              && (replies.login.None? ==> w'.trace[|w.trace| + 1] == LookupAbout(ResumeContext(w, env).value.identity))
    ensures w'.status == w.status && w'.current == w.current
    ensures w'.configurations == w.configurations && w'.saved == w.saved
  {
    match ResumeContext(w, env)
    case None => Complete(w, None, Some(ConfigurationFailed))
    case Some(context) =>
      var configuration := w.current.value;
      if replies.login.Some? then
        Complete(Emit(w, Login(configuration)), Some(context), Some(BotError(replies.login)))
      else
        var loggedIn := w.(session := Some(configuration.secret.identity));
        AboutLookedUp(Emit(Emit(loggedIn, Login(configuration)), LookupAbout(context.identity)), context, replies)
  }

  /**
   * The `about` callback: on success crash reporting and analytics identify the
   * found About, analytics with the network's display name; then complete.
   */
  function AboutLookedUp(w: World, context: Context, replies: ResumeReplies): (w': World)
    ensures w.trace < w'.trace && w'.trace[|w'.trace| - 1] == AboutVerdict(context, replies)
    ensures replies.about.None? ==> w'.trace == w.trace + [AboutVerdict(context, replies)]
    ensures replies.about.Some? ==>
              var about := replies.about.value;
              w'.trace == w.trace + [CrashReportingIdentify(about.identity, about.name, context.network),
                                     AnalyticsIdentify(about.identity, about.name, DisplayName(context.network)),
                                     AboutVerdict(context, replies)]
    ensures w'.tally == w.tally.(completions := w.tally.completions + 1)
    ensures w' == w.(trace := w'.trace, tally := w'.tally)
  {
    match replies.about
    case None => Complete(w, Some(context), Some(BotError(replies.aboutError)))
    case Some(about) =>
      var identified := Identify(w, about, context.network, DisplayName(context.network));
      Complete(identified, Some(context.(about := Some(about))), None)
  }

  /**
   * The defect in `resume`: when login fails, the completion receives the login
   * error and then a second, final outcome from the about lookup.
   */
  lemma ResumeLoginFailureCompletesTwice(w: World, env: Environment, replies: ResumeReplies)
    requires ResumeContext(w, env).Some? && replies.login.Some?
    ensures var w' := Resume(w, env, replies);
            && w'.tally.completions == w.tally.completions + 2
            && w'.trace[|w.trace| + 1] == StartCompleted(ResumeContext(w, env), Some(BotError(replies.login)))
            && w'.trace[|w'.trace| - 1] == AboutVerdict(ResumeContext(w, env).value, replies)
  {
  }

  /** Apart from the defect, the corrected `resume` is `resume`: with a clean login the two agree entirely. */
  lemma ResumeCorrectedAgreesOnCleanLogin(w: World, env: Environment, replies: ResumeReplies)
    requires replies.login.None?
    ensures ResumeCorrected(w, env, replies) == Resume(w, env, replies)
  {
  }

  /**
   * `resume` reports none of its failures: whatever the login and the lookup
   * answer, no event it adds is an error report.
   */
  lemma ResumeReportsNothing(w: World, env: Environment, replies: ResumeReplies)
    ensures var w' := Resume(w, env, replies);
            forall i | |w.trace| <= i < |w'.trace| :: !w'.trace[i].ErrorReported?
  {
    var w' := Resume(w, env, replies);
    if context :| ResumeContext(w, env) == Some(context) {
      var configuration := w.current.value;
      var loggedIn := if replies.login.None? then w.(session := Some(configuration.secret.identity)) else w;
      var attempted := Emit(loggedIn, Login(configuration));
      var answered := if replies.login.Some? then Complete(attempted, Some(context), Some(BotError(replies.login))) else attempted;
      assert forall i | |w.trace| <= i < |answered.trace| :: !answered.trace[i].ErrorReported?;
    }
  }

  /**
   * After a successful `start`, the corrected `resume` finds the saved
   * configuration: it logs in with it instead of failing with
   * `configurationFailed`, and a clean login and lookup complete without error.
   */
  lemma SuccessfulStartIsResumable(w: World, env: Environment, birthdate: Date, phone: string, name: string, replies: StartReplies, resumed: ResumeReplies)
    requires ContextBuildable(w, env, birthdate, name, replies)
    requires StartVerdict(w, env, birthdate, name, replies).None?
    ensures var started := Start(w, env, birthdate, phone, name, replies);
            var w' := ResumeCorrected(started, env, resumed);
            && ResumeContext(started, env).Some?
            && ResumeContext(started, env) == env.contextFrom(ConfigurationFor(env, name, replies))
            && w'.trace[|started.trace|] == Login(ConfigurationFor(env, name, replies))
            && w'.tally.logins == started.tally.logins + 1
            && (resumed.login.None? && resumed.about.Some? ==> w'.trace[|w'.trace| - 1].error.None?)
  {
    StartSucceeds(w, env, birthdate, phone, name, replies);
  }

  // ---------------------------------------------------------------------------
  // status

  /**
   * `start` marks exactly one identity started, the new one, and only when it
   * succeeds; every other identity's status reads as before.
   */
  lemma StartMarksOnlyNewIdentity(w: World, env: Environment, birthdate: Date, phone: string, name: string, replies: StartReplies, identity: Identity)
    requires ContextBuildable(w, env, birthdate, name, replies)
    ensures var w' := Start(w, env, birthdate, phone, name, replies);
            StatusOf(w'.status, identity) ==
              if StartVerdict(w, env, birthdate, name, replies).None? && identity == replies.createSecret.secret.value.identity
              then Started else StatusOf(w.status, identity)
  {
    if StartVerdict(w, env, birthdate, name, replies).None? {
      StartSucceeds(w, env, birthdate, phone, name, replies);
    }
  }

  /** The phone number has no effect: its check is commented out. */
  lemma StartIgnoresPhone(w: World, env: Environment, birthdate: Date, phone: string, otherPhone: string, name: string, replies: StartReplies)
    requires ContextBuildable(w, env, birthdate, name, replies)
    ensures Start(w, env, birthdate, phone, name, replies) == Start(w, env, birthdate, otherPhone, name, replies)
  {
  }

  // ---------------------------------------------------------------------------
  // The running tally agrees with the trace

  lemma ReportKeepsTallied(w: World, error: Option<Cause>)
    requires Tallied(w)
    ensures Tallied(Report(w, error))
  {
    if error.Some? {
      EmitKeepsTallied(w, ErrorReported(error.value));
    }
  }

  lemma IdentifyKeepsTallied(w: World, about: About, network: NetworkKey, networkLabel: NetworkLabel)
    requires Tallied(w)
    ensures Tallied(Identify(w, about, network, networkLabel))
  {
    var crash := CrashReportingIdentify(about.identity, about.name, network);
    EmitKeepsTallied(w, crash);
    EmitKeepsTallied(Emit(w, crash), AnalyticsIdentify(about.identity, about.name, networkLabel));
  }

  lemma DidStartKeepsTallied(w: World, configuration: Configuration, secret: Secret)
    requires Tallied(w)
    ensures Tallied(DidStart(w, configuration, secret))
  {
    var a, b, c := ConfigurationApplied(configuration), ConfigurationAdded(configuration), ConfigurationsSaved;
    var d, e := TrackOnboardingEnd, StatusSet(secret.identity, Started);
    var t := w.tally;
    TallyAfterAppend(NoEvents, w.trace, [a, b, c, d, e]);
    assert TallyAfter(t, [a, b, c, d, e]) == TallyAfter(Tick(t, a), [b, c, d, e]) by {
      assert [a, b, c, d, e][1..] == [b, c, d, e];
    }
    assert TallyAfter(Tick(t, a), [b, c, d, e]) == TallyAfter(Tick(Tick(t, a), b), [c, d, e]) by {
      assert [b, c, d, e][1..] == [c, d, e];
    }
    assert TallyAfter(Tick(Tick(t, a), b), [c, d, e]) == TallyAfter(Tick(Tick(Tick(t, a), b), c), [d, e]) by {
      assert [c, d, e][1..] == [d, e];
    }
    assert TallyAfter(Tick(Tick(Tick(t, a), b), c), [d, e]) == TallyAfter(Tick(Tick(Tick(Tick(t, a), b), c), d), [e]) by {
      assert [d, e][1..] == [e];
    }
    assert TallyAfter(Tick(Tick(Tick(Tick(t, a), b), c), d), [e]) == Tick(Tick(Tick(Tick(Tick(t, a), b), c), d), e) by {
      assert [e][1..] == [];
    }
  }

  lemma PublishRepliedKeepsTallied(w: World, configuration: Configuration, context: Context, secret: Secret, about: About, replies: StartReplies)
    requires Tallied(w)
    ensures Tallied(PublishReplied(w, configuration, context, secret, about, replies))
  {
    ReportKeepsTallied(w, replies.publish);
    var reported := Report(w, replies.publish);
    if replies.publish.Some? {
      EmitKeepsTallied(reported, StartCompleted(None, Some(BotError(replies.publish))));
    } else {
      var identified :=
        match configuration.network
        case Some(network) => Identify(reported, about, network, KeyString(network))
        case None => reported;
      if configuration.network.Some? {
        IdentifyKeepsTallied(reported, about, configuration.network.value, KeyString(configuration.network.value));
      }
      var completion := StartCompleted(Some(context.(about := Some(about))), None);
      EmitKeepsTallied(identified, completion);
      DidStartKeepsTallied(Emit(identified, completion), configuration, secret);
    }
  }

  lemma LoginRepliedKeepsTallied(w: World, configuration: Configuration, context: Context, secret: Secret, name: string, replies: StartReplies)
    requires Tallied(w)
    ensures Tallied(LoginReplied(w, configuration, context, secret, name, replies))
  {
    ReportKeepsTallied(w, replies.login);
    var reported := Report(w, replies.login);
    if replies.login.Some? {
      EmitKeepsTallied(reported, StartCompleted(None, Some(BotError(replies.login))));
    } else {
      var about := About(secret.identity, Some(name));
      EmitKeepsTallied(reported, Publish(about));
      PublishRepliedKeepsTallied(Emit(reported, Publish(about)), configuration, context, secret, about, replies);
    }
  }

  lemma SecretCreatedKeepsTallied(w: World, env: Environment, name: string, replies: StartReplies)
    requires replies.createSecret.secret.Some? ==> env.contextFrom(ConfigurationFor(env, name, replies)).Some?
    requires Tallied(w)
    ensures Tallied(SecretCreated(w, env, name, replies))
  {
    ReportKeepsTallied(w, replies.createSecret.error);
    var reported := Report(w, replies.createSecret.error);
    match replies.createSecret.secret
    case None =>
      EmitKeepsTallied(reported, StartCompleted(None, Some(SecretFailed(replies.createSecret.error))));
    case Some(secret) =>
      var configuration := ConfigurationFor(env, name, replies);
      var loggedIn := if replies.login.None? then reported.(session := Some(secret.identity)) else reported;
      EmitKeepsTallied(loggedIn, Login(configuration));
      LoginRepliedKeepsTallied(Emit(loggedIn, Login(configuration)), configuration, env.contextFrom(configuration).value, secret, name, replies);
  }

  /** The counts `start` promises are counts of its trace. */
  lemma StartKeepsTallied(w: World, env: Environment, birthdate: Date, phone: string, name: string, replies: StartReplies)
    requires ContextBuildable(w, env, birthdate, name, replies)
    requires Tallied(w)
    ensures Tallied(Start(w, env, birthdate, phone, name, replies))
  {
    if !Admitted(w, env, birthdate, name) {
      EmitKeepsTallied(w, StartCompleted(None, StartVerdict(w, env, birthdate, name, replies)));
    } else {
      EmitKeepsTallied(w, TrackOnboardingStart);
      EmitKeepsTallied(Emit(w, TrackOnboardingStart), CreateSecret);
      SecretCreatedKeepsTallied(Emit(Emit(w, TrackOnboardingStart), CreateSecret), env, name, replies);
    }
  }

  /** The counts `reset` promises are counts of its trace. */
  lemma ResetKeepsTallied(w: World, logoutError: Option<Cause>)
    requires Tallied(w)
    ensures Tallied(Reset(w, logoutError))
  {
    EmitKeepsTallied(w, Logout);
    var loggedOut := Emit(w, Logout);
    var left := if logoutError.None? then loggedOut.(session := None) else loggedOut;
    ReportKeepsTallied(left, logoutError);
    EmitKeepsTallied(Report(left, logoutError), AnalyticsForget);
    EmitKeepsTallied(Emit(Report(left, logoutError), AnalyticsForget), ResetCompleted);
  }

  lemma AboutLookedUpKeepsTallied(w: World, context: Context, replies: ResumeReplies)
    requires Tallied(w)
    ensures Tallied(AboutLookedUp(w, context, replies))
  {
    match replies.about
    case None =>
      EmitKeepsTallied(w, StartCompleted(Some(context), Some(BotError(replies.aboutError))));
    case Some(about) =>
      IdentifyKeepsTallied(w, about, context.network, DisplayName(context.network));
      var identified := Identify(w, about, context.network, DisplayName(context.network));
      EmitKeepsTallied(identified, StartCompleted(Some(context.(about := Some(about))), None));
  }

  /** The counts `resume` promises are counts of its trace, the doubled completion included. */
  lemma ResumeKeepsTallied(w: World, env: Environment, replies: ResumeReplies)
    requires Tallied(w)
    ensures Tallied(Resume(w, env, replies))
  {
    match ResumeContext(w, env)
    case None =>
      EmitKeepsTallied(w, StartCompleted(None, Some(ConfigurationFailed)));
    case Some(context) =>
      var configuration := w.current.value;
      var loggedIn := if replies.login.None? then w.(session := Some(configuration.secret.identity)) else w;
      EmitKeepsTallied(loggedIn, Login(configuration));
      var attempted := Emit(loggedIn, Login(configuration));
      if replies.login.Some? {
        EmitKeepsTallied(attempted, StartCompleted(Some(context), Some(BotError(replies.login))));
      }
      var answered := if replies.login.Some? then Complete(attempted, Some(context), Some(BotError(replies.login))) else attempted;
      EmitKeepsTallied(answered, LookupAbout(context.identity));
      AboutLookedUpKeepsTallied(Emit(answered, LookupAbout(context.identity)), context, replies);
  }

  lemma ResumeCorrectedKeepsTallied(w: World, env: Environment, replies: ResumeReplies)
    requires Tallied(w)
    ensures Tallied(ResumeCorrected(w, env, replies))
  {
    match ResumeContext(w, env)
    case None =>
      EmitKeepsTallied(w, StartCompleted(None, Some(ConfigurationFailed)));
    case Some(context) =>
      var configuration := w.current.value;
      if replies.login.Some? {
        EmitKeepsTallied(w, Login(configuration));
        EmitKeepsTallied(Emit(w, Login(configuration)), StartCompleted(Some(context), Some(BotError(replies.login))));
      } else {
        var loggedIn := w.(session := Some(configuration.secret.identity));
        EmitKeepsTallied(loggedIn, Login(configuration));
        EmitKeepsTallied(Emit(loggedIn, Login(configuration)), LookupAbout(context.identity));
        AboutLookedUpKeepsTallied(Emit(Emit(loggedIn, Login(configuration)), LookupAbout(context.identity)), context, replies);
      }
  }
}

=== FILE: peers.dfy ===
/**
 * A row of the connected-peer list (`PeerConnectionInfo`) and the order the
 * list is shown in: active peers first, then by display name.
 */
module Peers {
  import opened Wrappers
  import Text

  /**
   * The fields of a peer row the coordinator reads or writes: `id` is the raw
   * public key, `identity` the feed identity when known, `name` the display name.
   */
  datatype PeerInfo = PeerInfo(id: string, name: Option<string>, identity: Option<string>, isActive: bool)

  /** `PeerConnectionInfo(id:name:)`: a fresh, active row with no identity. */
  function NamedPeer(id: string, name: string): PeerInfo
  {
    PeerInfo(id, Some(name), None, true)
  }

  /** The key names are sorted by: `name ?? ""`. */
  function SortName(p: PeerInfo): string
  {
    p.name.GetOr("")
  }

  /** The sort closure: `lhs` goes strictly before `rhs`. */
  predicate InIncreasingOrder(lhs: PeerInfo, rhs: PeerInfo)
  {
    if lhs.isActive != rhs.isActive then lhs.isActive
    else Text.Less(SortName(lhs), SortName(rhs))
  }

  /** `a` may stand before `b`: the closure does not put `b` strictly first. */
  predicate NotAfter(a: PeerInfo, b: PeerInfo)
  {
    !InIncreasingOrder(b, a)
  }

  predicate Sorted(s: seq<PeerInfo>)
  {
    forall i, j | 0 <= i < j < |s| :: NotAfter(s[i], s[j])
  }

  /** The display order in plain words: active before inactive, names non-decreasing within each. */
  predicate DisplayOrdered(s: seq<PeerInfo>)
  {
    && (forall i, j | 0 <= i < j < |s| && s[j].isActive :: s[i].isActive)
    && (forall i, j | 0 <= i < j < |s| && s[i].isActive == s[j].isActive ::
          Text.LessOrEqual(SortName(s[i]), SortName(s[j])))
  }

  lemma InIncreasingOrderAsymmetric(a: PeerInfo, b: PeerInfo)
    requires InIncreasingOrder(a, b)
    ensures NotAfter(a, b)
  {
    if a.isActive == b.isActive {
      Text.LessAsymmetric(SortName(a), SortName(b));
    }
  }

  lemma NotAfterTotal(a: PeerInfo, b: PeerInfo)
    ensures NotAfter(a, b) || NotAfter(b, a)
  {
    if InIncreasingOrder(a, b) {
      InIncreasingOrderAsymmetric(a, b);
    }
  }

  lemma NotAfterTransitive(a: PeerInfo, b: PeerInfo, c: PeerInfo)
    requires NotAfter(a, b) && NotAfter(b, c)
    ensures NotAfter(a, c)
  {
    if a.isActive == b.isActive == c.isActive {
      var x, y, z := SortName(a), SortName(b), SortName(c);
      Text.LessTrichotomy(x, y);
      if Text.Less(z, x) {
        if x == y {
        } else if Text.Less(x, y) {
          Text.LessTransitive(z, x, y);
        }
      }
    }
  }

  /** The closure is a strict weak order, so sorting by it means exactly the display order. */
  lemma SortedIffDisplayOrdered(s: seq<PeerInfo>)
    ensures Sorted(s) <==> DisplayOrdered(s)
  {
    forall i, j | 0 <= i < j < |s|
      ensures NotAfter(s[i], s[j]) <==>
                (s[j].isActive ==> s[i].isActive) &&
                (s[i].isActive == s[j].isActive ==> Text.LessOrEqual(SortName(s[i]), SortName(s[j])))
    {
      Text.NotLessIsLessOrEqual(SortName(s[i]), SortName(s[j]));
    }
  }

  /** Places `x` before the first row it may stand before. */
  function Insert(x: PeerInfo, s: seq<PeerInfo>): (r: seq<PeerInfo>)
    ensures multiset(r) == multiset(s) + multiset{x}
  {
    if |s| == 0 then [x]
    else if NotAfter(x, s[0]) then [x] + s
    else
      assert s == [s[0]] + s[1..];
      [s[0]] + Insert(x, s[1..])
  }

  /** A row that may stand before every row of a sorted list may head it. */
  lemma PrependSorted(x: PeerInfo, s: seq<PeerInfo>)
    requires Sorted(s) && forall e <- s :: NotAfter(x, e)
    ensures Sorted([x] + s)
  {
    var r := [x] + s;
    forall i, j | 0 <= i < j < |r|
      ensures NotAfter(r[i], r[j])
    {
      if i == 0 {
        assert r[j] == s[j - 1];
      } else {
        assert r[i] == s[i - 1] && r[j] == s[j - 1];
      }
    }
  }

  /** The head of a sorted list may stand before every later row. */
  lemma HeadNotAfterRest(s: seq<PeerInfo>)
    requires Sorted(s) && |s| > 0
    ensures forall e <- s[1..] :: NotAfter(s[0], e)
  {
    forall e <- s[1..]
      ensures NotAfter(s[0], e)
    {
      var k :| 0 <= k < |s[1..]| && s[1..][k] == e;
      assert s[k + 1] == e;
    }
  }

  lemma {:induction false} InsertSorted(x: PeerInfo, s: seq<PeerInfo>)
    requires Sorted(s)
    ensures Sorted(Insert(x, s))
    decreases |s|
  {
    if |s| == 0 {
    } else if NotAfter(x, s[0]) {
      HeadNotAfterRest(s);
      forall e <- s
        ensures NotAfter(x, e)
      {
        if e != s[0] {
          assert e in s[1..] by {
            var k :| 0 <= k < |s| && s[k] == e;
            assert s[1..][k - 1] == e;
          }
          NotAfterTransitive(x, s[0], e);
        }
      }
      PrependSorted(x, s);
    } else {
      var tail := Insert(x, s[1..]);
      InsertSorted(x, s[1..]);
      InIncreasingOrderAsymmetric(s[0], x);
      HeadNotAfterRest(s);
      forall e <- tail
        ensures NotAfter(s[0], e)
      {
        assert e in multiset(tail);
        if e != x {
          assert e in multiset(s[1..]);
        }
      }
      PrependSorted(s[0], tail);
    }
  }

  /** Insertion sort: one of the orders Swift's `sorted(by:)` may return. */
  function Sort(s: seq<PeerInfo>): (r: seq<PeerInfo>)
    ensures multiset(r) == multiset(s)
    ensures Sorted(r)
  {
    if |s| == 0 then []
    else
      var rest := Sort(s[1..]);
      InsertSorted(s[0], rest);
      assert s == [s[0]] + s[1..];
      Insert(s[0], rest)
  }
}

=== FILE: sequences.dfy ===
/** Element-wise mapping of sequences and what a permutation keeps. */
module Sequences {

  function Map<T, U>(s: seq<T>, f: T -> U): seq<U>
  {
    seq(|s|, i requires 0 <= i < |s| => f(s[i]))
  }

  lemma MapAppend<T, U>(a: seq<T>, b: seq<T>, f: T -> U)
    ensures Map(a + b, f) == Map(a, f) + Map(b, f)
  {
  }

  /** Projecting two permutations of each other gives permutations of each other. */
  lemma {:induction false} MapPermutation<T, U>(s: seq<T>, t: seq<T>, f: T -> U)
    requires multiset(s) == multiset(t)
    ensures multiset(Map(s, f)) == multiset(Map(t, f))
    decreases |s|
  {
    if |s| == 0 {
      assert |t| == |multiset(t)| == 0;
    } else {
      var x := s[0];
      assert x in multiset(t);
      var j :| 0 <= j < |t| && t[j] == x;
      var rest := t[..j] + t[j + 1..];
      assert t == t[..j] + [x] + t[j + 1..];
      assert s == [x] + s[1..];
      assert multiset(t) == multiset(t[..j]) + multiset{x} + multiset(t[j + 1..]);
      assert multiset(s) == multiset{x} + multiset(s[1..]);
      assert multiset(rest) == multiset(t[..j]) + multiset(t[j + 1..]);
      assert multiset(s[1..]) == multiset(s) - multiset{x};
      assert multiset(rest) == multiset(t) - multiset{x};
      MapPermutation(s[1..], rest, f);
      MapAppend([x], s[1..], f);
      MapAppend(t[..j] + [x], t[j + 1..], f);
      MapAppend(t[..j], [x], f);
      MapAppend(t[..j], t[j + 1..], f);
    }
  }

  /** No element occurs twice. */
  predicate Distinct<T(==)>(s: seq<T>)
  {
    forall i, j | 0 <= i < j < |s| :: s[i] != s[j]
  }

  /** A duplicate-free sequence has as many elements as its set. */
  lemma {:induction false} DistinctCardinality<T>(s: seq<T>)
    requires Distinct(s)
    ensures |set x | x in s| == |s|
    decreases |s|
  {
    if |s| > 0 {
      DistinctCardinality(s[1..]);
      var tail := set x | x in s[1..];
      assert s[0] !in tail;
      assert (set x | x in s) == {s[0]} + tail;
    }
  }
}

=== FILE: text.dfy ===
/**
 * Ordering of strings as the peer list compares display names: character by
 * character, a proper prefix sorting first.
 */
module Text {

  /** Strict lexicographic order (`lhs < rhs` on strings). */
  predicate Less(a: string, b: string)
    decreases |a|
  {
    if |a| == 0 then |b| > 0
    else if |b| == 0 then false
    else a[0] < b[0] || (a[0] == b[0] && Less(a[1..], b[1..]))
  }

  predicate LessOrEqual(a: string, b: string)
  {
    a == b || Less(a, b)
  }

  lemma {:induction false} LessIrreflexive(a: string)
    ensures !Less(a, a)
    decreases |a|
  {
    if |a| > 0 {
      LessIrreflexive(a[1..]);
    }
  }

  lemma {:induction false} LessTransitive(a: string, b: string, c: string)
    requires Less(a, b) && Less(b, c)
    ensures Less(a, c)
    decreases |a|
  {
    if |a| > 0 && a[0] == b[0] && b[0] == c[0] {
      LessTransitive(a[1..], b[1..], c[1..]);
    }
  }

  lemma {:induction false} LessTrichotomy(a: string, b: string)
    ensures a == b || Less(a, b) || Less(b, a)
    decreases |a|
  {
    if |a| > 0 && |b| > 0 && a[0] == b[0] {
      LessTrichotomy(a[1..], b[1..]);
      if a[1..] == b[1..] {
        assert a == [a[0]] + a[1..];
        assert b == [b[0]] + b[1..];
      }
    }
  }

  lemma LessAsymmetric(a: string, b: string)
    requires Less(a, b)
    ensures !Less(b, a)
  {
    if Less(b, a) {
      LessTransitive(a, b, a);
      LessIrreflexive(a);
    }
  }

  /** `!(b < a)` is exactly `a <= b`: the order is total. */
  lemma NotLessIsLessOrEqual(a: string, b: string)
    ensures !Less(b, a) <==> LessOrEqual(a, b)
  {
    LessTrichotomy(a, b);
    if Less(a, b) {
      LessAsymmetric(a, b);
    }
    if a == b {
      LessIrreflexive(a);
    }
  }
}

=== FILE: wrappers.dfy ===
/** The optional values Swift writes as `T?`. */
module Wrappers {

  datatype Option<+T> = None | Some(value: T) {

    /** `self ?? fallback` */
    function GetOr(fallback: T): T
    {
      match this
      case Some(v) => v
      case None => fallback
    }
  }
}
